=== FILE: README.md ===
# Holocron training core in Dafny

This project models the training core of Holocron, a PyTorch library:

- the LAMB optimizer (`holocron/optim/lamb.py`): hyperparameter validation,
  and the `step` pass that updates each parameter with Adam-style moments
  and a LARS-style trust ratio;
- the layer utilities of the trainer (`holocron/trainer/utils.py`):
  `freeze_bn`, `freeze_model` and `split_normalization_params`;
- the loops of the base `Trainer` (`holocron/trainer/core.py`):
  - `_backprop_step` with gradient accumulation, clipping and mixed
    precision;
  - `_fit_epoch` with its tolerance for non-finite losses;
  - `_set_params` and `_reset_opt`, which rebuild the optimizer's parameter
    groups;
  - the constructor's initial state;
  - the `find_lr` learning-rate range test.

Modules:

- `Outcomes` holds `Option` and `Result`.
- `Vectors` holds flattened tensors as `seq<real>`, with the laws assumed of
  the square root and the L2 norm.
- `Lamb` and `LambLaws` model the optimizer and its properties.
- `ModuleTree` models the part of a torch module tree the utilities touch:
  kinds, batch-norm flags, the training flag, parameters and children in
  registration order.
- `Freezing` and `Partition` model the utilities.
- `TrainerCore` models the trainer.

How the model stands in for the runtime:

- **Square root and norm.** These are function parameters (`sqrt`, `norm`).
  Each proof assumes only the laws it uses (`IsSqrt`, `NormNonNegative`,
  `NormZeroIff`, `NormHomogeneous`).
- **Division.** Floating-point division, which would yield NaN or infinity,
  is replaced by exact real division. The precondition `WalkDefined` (or
  `CanStep`) says that no denominator the pass reaches is zero.
  `LambLaws.ConditionedWalkDefined` proves that this holds whenever
  `eps > 0`, `beta2` lies in `[0, 1]` and the stored second moments are
  non-negative.
- **Torch calls.** The trainer's calls into torch (backward, unscale, clip,
  optimizer step, scaler update, zero_grad, scheduler step) are recorded as
  a sequence of `Event`s. The properties count and order those events.
- **Truth of a module.** A module object is true in Python unless it is an
  empty container. The kinds `ChildList` (`Sequential`, `ModuleList`,
  `ModuleDict`) and `ParamList` (`ParameterList`, `ParameterDict`) carry the
  length that decides it (`ModuleTree.Truthy`).
- **Losses.** A batch's loss is `Finite(value)` or `NonFinite`, as
  `torch.isfinite` sees it. A data loader is the sequence of its batch
  losses.

Where documented behaviour and code differ, the model follows the code:

- **Bias correction.** The LAMB docstring states moments corrected for bias
  (`holocron/optim/lamb.py:28-32`). The code applies no bias correction
  (lines 114-120).
- **Trust-ratio denominator.** The docstring's formula divides by the norm
  of `r + theta`, without the weight-decay factor (line 39). The code
  divides by the norm of the update `r + wd * theta` it applies (lines
  123-134).
- **Unknown cutoff layer.** When the cutoff prefix of `freeze_model` matches
  no parameter name, one could expect the model to be left unfrozen. The
  code has already frozen every parameter when it raises
  (`holocron/trainer/utils.py:59-68`). `Freezing.FreezeModel`
  states the code's behaviour.

## Model

| member | source | states |
|---|---|---|
| Lamb.Create | holocron/optim/lamb.py:63-76 | construction succeeds iff lr >= 0, eps >= 0, both betas lie in [0, 1), the parameter list is not empty and no parameter is in two groups; the first failing check, in source order and then the base class's, is the error reported; on success the defaults are kept, the state is empty, scale_clip defaults to (0, 10), and each group keeps its parameters and inherits the lr, betas, eps and weight decay it does not override |
| Lamb.AddGroups | holocron/optim/lamb.py:72 | adding the groups in order, each checked against the groups added before it, succeeds iff no two groups share a parameter |
| Lamb.Clamp | holocron/optim/lamb.py:129 | the clamped norm lies within [lo, hi] when lo <= hi; it is the input inside the bounds, lo below them, and hi above them or whenever hi < lo |
| Lamb.LocalLr | holocron/optim/lamb.py:131-134 | the trust ratio is 1 when the clamped parameter norm or the update norm is zero; otherwise it times the update norm equals the clamped parameter norm |
| Lamb.Apply | holocron/optim/lamb.py:138 | the old value minus the new one is exactly lr * local_lr * update |
| Lamb.TrustMove | holocron/optim/lamb.py:126-138 | the LARS step returns the trust ratio of the clamped parameter norm against the update norm (1 when either is zero, otherwise times the update norm equal to the clamped norm) and the value moved against the update by lr times that ratio, entry by entry |
| Lamb.UpdateOne | holocron/optim/lamb.py:98-138 | one update keeps the tensor's shape and advances the step counter of the stored or freshly created state by one; the first moment becomes beta1 times the old one plus (1 - beta1) times the gradient, and the second beta2 times the old one plus (1 - beta2) times the squared gradient; the value moves against the update direction by lr times the stored local lr, which is 1 when the clamped parameter norm or the update norm is zero and otherwise makes the update norm times it equal the clamped parameter norm |
| Lamb.Visit | holocron/optim/lamb.py:98-138 | visiting a parameter changes only that parameter's value and state entry, never a gradient or a shape, and adds exactly that index to the state |
| Lamb.Walk | holocron/optim/lamb.py:90-138 | the pass over all groups keeps every gradient and shape and never drops a state entry |
| Lamb.Step | holocron/optim/lamb.py:79-140 | step leaves defaults, groups and scale_clip alone and, unless it raises, returns the closure's loss |
| LambLaws.FreshFirstUpdate | holocron/optim/lamb.py:101-115 | on a parameter's first update the step counter is 1 and the moments are (1 - beta1) g and (1 - beta2) g * g, with no bias correction |
| LambLaws.MomentsFromZero | holocron/optim/lamb.py:104-115 | updating zero moments gives (1 - beta1) g and (1 - beta2) g * g |
| LambLaws.ZeroGradientDecays | holocron/optim/lamb.py:114-115 | with a zero gradient both moments only decay, by beta1 and beta2 |
| LambLaws.WeightDecayIsolation | holocron/optim/lamb.py:118-124 | with zero weight decay the direction is exactly m / (sqrt(v) + eps); otherwise it is that ratio plus wd * theta |
| LambLaws.TrustRatioMove | holocron/optim/lamb.py:131-138 | under a homogeneous norm, a move by lr * local_lr * u with local_lr * norm(u) = phi has norm abs(lr * phi) |
| LambLaws.ApplyUnitRate | holocron/optim/lamb.py:132-138 | with local_lr 1 the update is a plain step of lr * update |
| LambLaws.ApplyZeroDirection | holocron/optim/lamb.py:138 | a zero update leaves the value unchanged |
| LambLaws.TrustRatioStep | holocron/optim/lamb.py:127-138 | when neither norm is zero, the step taken has norm abs(lr * clamp(norm(theta))), independent of the update's magnitude |
| LambLaws.DegenerateStep | holocron/optim/lamb.py:131-138 | when the clamped norm or the update norm is zero, the local lr is 1 and a plain lr step is taken; a zero update leaves the value unchanged |
| LambLaws.FreshZeroGradientKeepsValue | holocron/optim/lamb.py:101-138 | a first update from a zero gradient without weight decay leaves the parameter unchanged |
| LambLaws.SecondMomentNonNegative | holocron/optim/lamb.py:115 | with beta2 in [0, 1] a non-negative second moment stays non-negative |
| LambLaws.ConditionedWalkDefined | holocron/optim/lamb.py:118-120 | with a true square root, eps > 0, beta2 in [0, 1] and non-negative stored second moments, no denominator sqrt(v) + eps the pass reaches is zero |
| LambLaws.WalkKeepsNonNegative | holocron/optim/lamb.py:98-138 | the pass over the groups leaves every stored second moment non-negative when they all were |
| LambLaws.StepKeepsConditioned | holocron/optim/lamb.py:115 | a step from non-negative stored second moments keeps them non-negative, so the condition under which the next step is defined still holds |
| LambLaws.WalkLeavesUnvisited | holocron/optim/lamb.py:90-93 | a parameter without a dense gradient, or listed in no visited slot, keeps its value and its state entry, and gains no state entry |
| LambLaws.WalkSparseIff | holocron/optim/lamb.py:95-96 | the pass raises the sparse-gradient error iff some scheduled parameter has a sparse gradient |
| LambLaws.WalkStopsAtFirstSparse | holocron/optim/lamb.py:90-96 | the pass equals the pass over the slots before the first sparse gradient; updates already applied are kept, so nothing is rolled back |
| LambLaws.WalkAppliesRuleOnce | holocron/optim/lamb.py:98-138 | without sparse gradients and with each index listed once, every scheduled parameter with a dense gradient ends with exactly one application of the update rule to its prior state, and its step counter advanced by one |
| LambLaws.ScheduleCovers | holocron/optim/lamb.py:90-91 | the pass visits an index iff some parameter group lists it |
| LambLaws.StepSparseIff | holocron/optim/lamb.py:90-96 | step raises the sparse-gradient error iff some parameter in a group has a sparse gradient |
| LambLaws.StepLeavesUntouched | holocron/optim/lamb.py:90-98 | step leaves the value and state of a parameter without gradient, or in no group, unchanged |
| ModuleTree.SetTrainingAt | holocron/trainer/utils.py:31 | train() and eval() set the training flag of every sub-module, change no other field, and keep the tree's shape |
| ModuleTree.SetTrainingParams | holocron/trainer/core.py:141 | setting the training mode leaves the parameters as they are |
| ModuleTree.SetFlags | holocron/trainer/utils.py:53-54 | writing requires_grad flags in parameter order gives the i-th parameter the i-th flag and changes nothing else in the parameter list or the module's own fields |
| ModuleTree.SetFlagsFlags | holocron/trainer/utils.py:53-54 | reading the flags back gives the flags written |
| Freezing.ScanSpec | holocron/trainer/utils.py:57-68 | the loop reports the layer reached iff some name starts with the cutoff; then exactly the parameters through the end of the first run of matching names are frozen; otherwise every parameter is frozen |
| Freezing.ScanAfterUnfreeze | holocron/trainer/utils.py:53-68 | after the unfreezing pass, the loop reports the layer reached iff some name matches and leaves the reference cutoff flags (every parameter frozen when none matches), whatever flags the model had on entry |
| Freezing.FrozenFormPrefix | holocron/trainer/utils.py:59-66 | the frozen parameters always form a prefix of the enumeration order |
| Freezing.LaterMatchStaysTrainable | holocron/trainer/utils.py:62-66 | a matching name after a non-matching one that follows the first run stays trainable, because the loop has broken off |
| Freezing.FreezeBnAt | holocron/trainer/utils.py:27-31 | freeze_bn switches statistics tracking off exactly in the batch-norm modules that are affine and whose parameters are all frozen, switches training off exactly in those modules' subtrees, and changes nothing else |
| Freezing.FreezeBnParams | holocron/trainer/utils.py:27-31 | freeze_bn does not touch the parameters |
| Freezing.FreezeModel | holocron/trainer/utils.py:34-72 | freeze_model never renames or reorders the parameters; without a cutoff it succeeds, every parameter ends trainable, and the model is the unfrozen one with freeze_bn applied unless statistics updates are forced; with a cutoff that some name matches it succeeds, the flags are the loop's reference flags, and freeze_bn runs unless statistics updates are forced; with a cutoff that no name matches it raises after freezing every parameter, and freeze_bn does not run |
| Freezing.SetFlagsTwice | holocron/trainer/utils.py:53-61 | writing flags after earlier flags is the same as writing only the later ones |
| Partition.CheckClasses | holocron/trainer/utils.py:84-86 | the check fails iff some entry is not a module class; the error names the first such entry; on success every entry's class is kept in order |
| Partition.NormClasses | holocron/trainer/utils.py:81-86 | a missing or empty norm_classes means batch norm, layer norm and group norm; otherwise it is rejected iff some entry is not a module class, the error naming the first such entry, and on success it stands for the entries' kinds in order |
| Partition.Trainable | holocron/trainer/utils.py:94-98 | a parameter is kept iff it is in the list and requires grad |
| Partition.SplitNormalizationParams | holocron/trainer/utils.py:75-99 | the split raises iff the class check fails; otherwise "norm" holds exactly the trainable parameters registered by childless modules of a normalization class and "other" the remaining trainable ones, in parameters() order; together they are the trainable parameters as a multiset, and with distinct identities none is in both |
| Partition.SplitIsSelection | holocron/trainer/utils.py:90-99 | the walk over modules() gives "norm" exactly the trainable parameters registered by childless normalization modules, and "other" the rest, both in parameters() order |
| Partition.SplitModule | holocron/trainer/utils.py:90-99 | the walk over one module and its descendants puts every trainable parameter, and nothing else, into exactly one of the two outputs, counted with multiplicity |
| Partition.SplitAll | holocron/trainer/utils.py:90-99 | the walk over a list of sibling modules does the same for the trainable parameters of all of them |
| Partition.SplitPartitions | holocron/trainer/utils.py:90-99 | with distinct parameter identities no parameter lands in both outputs |
| Partition.OwnParamsPlacement | holocron/trainer/utils.py:92-93 | a module with a child puts its own trainable parameters first in "other", ahead of its descendants', even when it is of a normalization class |
| Partition.LeafPlacement | holocron/trainer/utils.py:94-97 | a childless module puts its trainable parameters in "norm" exactly when its class is listed, and in "other" otherwise |
| Partition.SplitIdsApart | holocron/trainer/utils.py:90-99 | with distinct parameter identities no parameter of the norm list shares its identity with one of the other list |
| Partition.AsWrittenAgrees | holocron/trainer/utils.py:92-98 | where no module's first child is an empty container, the loop's test on the first child's truth value agrees with the test for a child, and the walk as written equals the intended one |
| Partition.AsWrittenFalsyFirstChild | holocron/trainer/utils.py:93-98 | as written, a module whose first child is an empty container hands on all its trainable parameters, its descendants' included, to the list its class selects, ahead of what the walk over the descendants adds again |
| Partition.AsWrittenAfterEmpty | holocron/trainer/utils.py:92-98 | as written, a parent with an empty container and then a childless module as children hands on the leaf's trainable parameters itself and the leaf hands them on again: twice in "other", or once in each list when the leaf's class is listed |
| Partition.AsWrittenDuplicates | holocron/trainer/utils.py:92-98 | as written, a linear layer after an empty Sequential has its weight and bias in "other" twice |
| Partition.AsWrittenSharesNormParams | holocron/trainer/utils.py:92-98 | as written, a batch norm after an empty ModuleList has its weight and bias in both lists, though their identities are distinct |
| TrainerCore.BackpropStep | holocron/trainer/core.py:184-208 | every call calls backward once, first, and never the scheduler; it steps the optimizer and zeroes the gradients exactly when the counter reaches gradient_acc, when the counter resets to 0, and otherwise the counter grows by one and backward is the only call; a stepping call clips with the configured max norm, before the step, exactly when the clip value is a float, unscales exactly when it also runs under amp, updates the scaler exactly under amp, and ends with zero_grad, so its calls are those of TrainerCore.StepCalls |
| TrainerCore.StepCallsCount | holocron/trainer/core.py:187-208 | an update makes one backward, one optimizer step and one zero_grad call, and no scheduler step |
| TrainerCore.StepCallsOrder | holocron/trainer/core.py:187-208 | an update starts with backward and ends with its only zero_grad; it clips exactly when the clip value is a float, and any clipping comes before the optimizer step; it unscales exactly under amp with a float clip value, directly before the clip, and under amp the scaler update directly follows the optimizer step |
| TrainerCore.BackpropsCalls | holocron/trainer/core.py:184-208 | n calls make n backward calls, as many zero_grad calls as optimizer steps, and no scheduler step |
| TrainerCore.AccumulationCounts | holocron/trainer/core.py:186-208 | from a counter in [0, gradient_acc), n calls leave it in that range, and steps * gradient_acc + counter grows by exactly n |
| TrainerCore.AccumulationDivMod | holocron/trainer/core.py:186-208 | from a fresh counter, n calls make n div gradient_acc optimizer steps and leave the counter at n mod gradient_acc |
| TrainerCore.KthCallSteps | holocron/trainer/core.py:190-208 | from a fresh counter, the (n+1)-th call steps the optimizer iff n + 1 is a multiple of gradient_acc |
| TrainerCore.NoAccumulationTarget | holocron/trainer/core.py:186-202 | once the counter is at or past gradient_acc (always so when gradient_acc <= 0), the counter only grows and the optimizer never steps |
| TrainerCore.Batches | holocron/trainer/core.py:143-164 | of the trainer state the model keeps, the batch loop changes only the accumulation counter, the step counter and the calls recorded; the optimizer step is recorded as a call and not applied, so the optimizer is left as it was |
| TrainerCore.FitEpoch | holocron/trainer/core.py:135-165 | an epoch puts the model in train mode with freeze_bn applied and leaves both recorders alone, and the optimizer too, since its steps are recorded as calls and not applied; it fails iff skip_nan_loss is set and more than nan_tolerance consecutive losses are non-finite; a finished epoch advances step by the batch count and epoch by one, and leaves the accumulation counter where one backprop call per backpropped batch takes it; a failed one advances step by the batches before the failing one and leaves epoch alone |
| TrainerCore.StreakIsRun | holocron/trainer/core.py:153-158 | the nan counter at batch i is the length of the run of non-finite losses ending at i |
| TrainerCore.FirstExceed | holocron/trainer/core.py:153-159 | the first batch whose nan counter passes the tolerance: none before it does, and it does if it exists |
| TrainerCore.BatchesSpec | holocron/trainer/core.py:143-164 | with skipping on, the loop raises iff some batch's nan counter passes nan_tolerance, at the first such batch, with step advanced by the batches before it; with skipping off it never raises and step advances by every batch |
| TrainerCore.BatchesCounter | holocron/trainer/core.py:145-156 | a finished loop leaves the accumulation counter where one `_backprop_step` call per backpropped batch takes it from its starting value |
| TrainerCore.EpochEvents | holocron/trainer/core.py:152-161 | a finished epoch calls backward once per batch that is not skipped and steps the scheduler once per batch |
| TrainerCore.SetParams | holocron/trainer/core.py:229-236 | building the parameter lists raises "all parameters are frozen" iff no parameter requires grad |
| TrainerCore.ResetOpt | holocron/trainer/core.py:238-251 | the reset sets the default lr, clears the state and keeps scale_clip; it raises iff no parameter is trainable, and then leaves no groups; without a norm weight decay there is one group of every trainable parameter in order with the defaults; with one there are exactly the non-empty ones of a norm group with that decay, first, and an other group with the default decay, last |
| TrainerCore.NormGroupsShape | holocron/trainer/core.py:248-251 | with a norm weight decay there is one group per non-empty list, so one or two groups, each non-empty; the norm group comes first with that decay, and the other group has the default decay |
| TrainerCore.ResetGroupsAccepted | holocron/trainer/core.py:248-251 | with distinct identities the norm and other groups that _reset_opt adds share no parameter, so add_param_group accepts both |
| TrainerCore.AsWrittenResetRejects | holocron/trainer/core.py:248-251 | with the split as written, the batch norm after an empty ModuleList gives _reset_opt two groups sharing a parameter, so the second add_param_group call raises |
| TrainerCore.SplitNonEmpty | holocron/trainer/core.py:248-251 | when some parameter is trainable, at least one of the two split lists is non-empty, so the norm-decay reset adds at least one group |
| TrainerCore.Init | holocron/trainer/core.py:78-88 | a new trainer starts with zero counters, empty recorders and a reset optimizer at its own default lr, with one group of every trainable parameter, and raises iff every parameter is frozen |
| TrainerCore.Search | holocron/trainer/core.py:355-373 | of the trainer state the model keeps, the recording loop changes only the accumulation counter, the calls recorded and the loss recorder; the optimizer step is recorded as a call and not applied |
| TrainerCore.FinitePrefix | holocron/trainer/core.py:365-369 | the length of the leading run of finite losses |
| TrainerCore.SearchSpec | holocron/trainer/core.py:355-373 | the recording loop raises iff the loss at index 0 is non-finite, and keeps the finite losses before the first non-finite one, at most the iterations left |
| TrainerCore.SearchLosses | holocron/trainer/core.py:355-373 | the recording loop appends to the loss recorder exactly the losses the reference Recorded lists |
| TrainerCore.RecordedKept | holocron/trainer/core.py:365-373 | the reference list of recorded losses is the first Kept values of the finite prefix |
| TrainerCore.LrSearchSpec | holocron/trainer/core.py:346-375 | after the optimizer reset, for 2 <= num_it <= the batch count, the search fails iff the first loss is non-finite; on success the loss recorder holds the first min(num_it, finite prefix) losses and the lr recorder as many schedule entries |
| TrainerCore.LrSearchNonPositive | holocron/trainer/core.py:346-375 | after the optimizer reset, for a non-positive num_it and a finite first loss, the search succeeds, records every finite loss up to the first non-finite one, and leaves the lr recorder empty |
| TrainerCore.FindLr | holocron/trainer/core.py:340-375 | find_lr raises when num_it exceeds the batch count, when freezing fails, when every parameter is frozen, and on the divisions by zero at start_lr = 0 or num_it = 1; for 2 <= num_it <= the batch count it fails iff the first loss is non-finite, and on success records the first min(num_it, finite prefix) losses and as many schedule entries; as written, a non-positive num_it with a finite first loss succeeds, records the whole finite prefix and leaves the lr recorder empty, so the recorders differ in length |
| TrainerCore.FindLrChecked | holocron/trainer/core.py:340-375 | find_lr with a num_it check: a non-positive value is rejected before anything changes, and whenever the search succeeds the two recorders have the same length, at most num_it |

## Left out

- **Devices.** GPU placement (`set_device`, `to_cuda`) is not modelled: it
  moves data and changes no value.
- **Checkpoints.** `save`, `load` and `output_file` are not modelled: they
  are file I/O.
- **The forward pass.** The model's forward pass, the criterion and
  autograd's backward are not modelled. A batch is its loss, and backward
  is a `Backward` event.
- **Mixed precision.** The GradScaler's numerics are not modelled. That
  includes `scaler.step` skipping the optimizer step when gradients
  overflow: the model always records `OptimizerStep`.
- **Clipping.** The numerics of `clip_grad_norm_` are not modelled; only
  the call and its max-norm value are recorded.
- **Schedulers.** `_reset_scheduler`, the OneCycle, cosine and
  MultiplicativeLR schedules, and the optimizer lr they set are not
  modelled. Only the scheduler-step calls are recorded.
- **The power in `find_lr`.** The floating-point power
  `(end_lr / start_lr) ** (1 / (num_it - 1))` is computed by the caller and
  passed in as `gamma`. So the error Python raises when `end_lr` is 0 and
  the exponent is negative is not modelled. The two divisions by zero, at
  `start_lr == 0` and `num_it == 1`, are modelled.
- **GradScaler creation in `find_lr`.** The fresh scaler created in
  `find_lr` under amp is not modelled, since no scaler state is.
- **Other trainer methods.** `fit_n_epochs`, `evaluate`,
  `_eval_metrics_str`, `check_setup`, `plot_recorder`, `min_loss`,
  `start_epoch`, progress bars and printing are not modelled. They are
  outer loops, plots and reports around the modelled pieces, or they depend
  on subclass metrics.
- **Floating point.** Floating-point rounding, NaN and infinity are
  replaced by exact reals. `sqrt` and `norm` are parameters, and losses are
  only finite or not.
- **The closure.** The closure of `LAMB.step` is not run by the model. Its
  loss is an input, and the gradients are given as they are after it ran.
- **State keys.** Optimizer state keyed by tensor identity is keyed by the
  parameter's index.
- **The weight-decay fallback.** The fallback of
  `defaults.get("weight_decay", 0)` in `_reset_opt` is not modelled: the
  LAMB constructor always sets the key, so the model's defaults always hold
  a weight decay.
- **The final `zero_grad`.** The `zero_grad` call that ends `_reset_opt` is
  not modelled: gradients are not part of the trainer state in this model.
- **Shared modules.** Shared sub-modules and parameters, which torch's
  `modules()` and `parameters()` visit once, are not modelled: the module
  tree has no sharing.
- **Class membership.** `isinstance` and `issubclass` against
  `norm_classes` are modelled as membership of the module's kind. A class
  stands for the kind of its instances, and `BatchNorm` stands for every
  `_BatchNorm` subclass. A listed class that is a proper superclass of
  several kinds, such as `nn.Module` itself, is not modelled.
- **The rest of Holocron.** Models, datasets, losses, other optimizers and
  the other trainer subclasses are not part of this model.
- **The trainer's optimizer.** The trainer accepts any torch optimizer;
  the model fixes it to LAMB, whose state is the one modelled.
- **torch's `Optimizer` base class.** The base class is not part of this
  model beyond the two rejections `Lamb.Create` states: an empty parameter
  list and a parameter in two groups. Its type checks (a set of
  parameters, a non-tensor entry, a non-leaf tensor) are left out, since
  the model's parameters are indices. So are its warning about a parameter
  listed twice in one group, and the same check in the `add_param_group`
  calls of `_reset_opt`, whose two lists share no parameter
  (`Partition.SplitNormalizationParams`).
- `Lamb.Step`: requires that no denominator it reaches is zero (`CanStep`).
  With `eps == 0` and a zero second moment the source divides by zero and
  produces NaN. The model does not describe that case;
  `LambLaws.ConditionedWalkDefined` gives a sufficient condition for it not
  to arise.
- `LambLaws.WalkAppliesRuleOnce`: assumes that no index is listed twice in
  the groups. `Lamb.Create` rejects a parameter in two groups, as torch's
  `add_param_group` does, but torch only warns about a parameter listed
  twice in one group, so the assumption is not implied by construction.
- `Partition.SplitNormalizationParams`: states that no parameter lands in
  both outputs only when parameter identities are distinct (`DistinctIds`).
  In torch every parameter is a distinct object. The model's `Param` carries
  its identity as a field, and nothing in the model forces two fields to
  differ. It also returns the intended walk's lists; with the test as
  written a parameter can be listed twice or in both lists
  (`Partition.AsWrittenDuplicates`, `Partition.AsWrittenSharesNormParams`).
- `Partition.SplitPartitions`: states disjointness under the same
  `DistinctIds` assumption, for the same reason. It is about the walk with
  the intended test; see the next lines and "## Findings".
- `Partition.SplitModule`: tests whether a module has a child, where the
  loop (`utils.py:93`) tests the first child's truth value. The two differ
  when the first child is an empty container. That test is modelled by
  `Partition.SplitModuleAsWritten`, and the difference is in "## Findings".
- `Partition.SplitAll`: walks siblings with the intended test of
  `Partition.SplitModule`, not the test as written.
- `Partition.SplitIsSelection`: describes the walk with the intended test;
  with the test as written, a module whose first child is an empty
  container hands on its descendants' parameters too
  (`Partition.AsWrittenFalsyFirstChild`).
- `Partition.OwnParamsPlacement`: is about a module with a child under the
  intended test; as written, a module whose first child is an empty
  container is treated as childless (`Partition.AsWrittenFalsyFirstChild`).
- `TrainerCore.ResetOpt`: uses the intended split, whose lists
  `add_param_group` always accepts (`TrainerCore.ResetGroupsAccepted`). As
  written, a batch norm after an empty container makes the second
  `add_param_group` call raise (`TrainerCore.AsWrittenResetRejects`), and
  the model's reset succeeds instead.
- `TrainerCore.FindLr`: resets the optimizer with the intended split, so it
  does not raise in that case either.
- `TrainerCore.Batches`: does not apply `Lamb.Step` when it records an
  `OptimizerStep` call, because gradients come from the backward pass,
  which is not modelled. So the optimizer's state and the parameter values
  stay as they were during the loop, where the source advances both on
  every optimizer step (`core.py:206`).
- `TrainerCore.FitEpoch`: keeps the optimizer unchanged over an epoch for
  the same reason.
- `TrainerCore.Search`: keeps the optimizer unchanged over the search for
  the same reason.

## Findings

| source | as written | input that shows it | evidently intended | confidence | as-written member | corrected member |
|---|---|---|---|---|---|---|
| holocron/trainer/core.py:340-375 | only `num_it > len(train_loader)` is rejected, so a non-positive `num_it` passes: the schedule is empty, the loop never reaches `batch_idx + 1 == num_it` and records every finite loss up to the first non-finite one, and the lr recorder is truncated to nothing | `num_it = 0`, `start_lr = 1e-7`, `end_lr = 1`, a first batch with a finite loss: loss recorder non-empty, lr recorder empty, so the two recorders that `plot_recorder` pairs differ in length | reject a non-positive `num_it`, so that on success both recorders have the same length, at most `num_it` | medium, not executed | TrainerCore.FindLr | TrainerCore.FindLrChecked |
| holocron/trainer/utils.py:93 | the loop tests `next(module.children(), None)` for truth, so a module whose first child is an empty container (`Sequential()`, `ModuleList()`, `ModuleDict()`, an empty `ParameterList`) takes the childless branch and hands on its descendants' parameters, which the loop then visits again | `Sequential(Sequential(), Linear(2, 2))` puts the linear weight and bias in the other list twice; `Sequential(ModuleList(), BatchNorm2d(4))` puts the batch-norm weight and bias in both lists, and with a norm weight decay the second `add_param_group` of `_reset_opt` raises | test whether the module has a child, so that every trainable parameter is in exactly one list | medium, not executed | Partition.AsWrittenDuplicates | Partition.SplitModule |

=== FILE: freezing.dfy ===
/** Layer freezing (holocron/trainer/utils.py): `freeze_model`, which
    unfreezes everything and then freezes the parameters up to the end of
    the first run of names starting with a cutoff prefix, and `freeze_bn`,
    which stops statistics tracking in batch-norm layers whose parameters
    are all frozen. */
module Freezing {
  import opened Outcomes
  import opened ModuleTree

  predicate StartsWith(s: string, prefix: string) {
    |prefix| <= |s| && s[..|prefix|] == prefix
  }

  // ---------------------------------------------------------------------
  // The parameter loop of freeze_model

  /** The loop over `named_parameters` for a cutoff prefix, from the state
      `reached`: the resulting `requires_grad` flags, and whether the layer
      was reached.  Once reached, the first non-matching name breaks the
      loop, leaving it and every later parameter trainable. */
  function FreezeScan(names: seq<string>, prefix: string, reached: bool): (r: (seq<bool>, bool))
    ensures |r.0| == |names|
    decreases |names|
  {
    if names == [] then ([], reached)
    else if StartsWith(names[0], prefix) then
      var t := FreezeScan(names[1..], prefix, true);
      ([false] + t.0, t.1)
    else if reached then (Constant(|names|, true), true)
    else
      var t := FreezeScan(names[1..], prefix, false);
      ([false] + t.0, t.1)
  }

  /** Some name starts with the prefix. */
  predicate AnyMatch(names: seq<string>, prefix: string) {
    exists i :: 0 <= i < |names| && StartsWith(names[i], prefix)
  }

  /** The position of the first name starting with the prefix. */
  function FirstMatch(names: seq<string>, prefix: string): (i: nat)
    requires AnyMatch(names, prefix)
    ensures i < |names| && StartsWith(names[i], prefix)
    ensures forall j :: 0 <= j < i ==> !StartsWith(names[j], prefix)
  {
    if StartsWith(names[0], prefix) then 0
    else
      assert AnyMatch(names[1..], prefix) by {
        var k :| 0 <= k < |names| && StartsWith(names[k], prefix);
        assert names[1..][k - 1] == names[k];
      }
      var i := FirstMatch(names[1..], prefix);
      assert forall j :: 1 <= j < i + 1 ==> names[j] == names[1..][j - 1];
      i + 1
  }

  /** The length of the run of names starting with the prefix at the head. */
  function RunLength(names: seq<string>, prefix: string): (n: nat)
    ensures n <= |names|
    ensures forall j :: 0 <= j < n ==> StartsWith(names[j], prefix)
    ensures n == |names| || !StartsWith(names[n], prefix)
  {
    if names != [] && StartsWith(names[0], prefix) then
      var n := RunLength(names[1..], prefix);
      assert forall j :: 1 <= j < n + 1 ==> names[j] == names[1..][j - 1];
      n + 1
    else 0
  }

  /** The end of the first run of matching names. */
  function RunEnd(names: seq<string>, prefix: string): (e: nat)
    requires AnyMatch(names, prefix)
    ensures FirstMatch(names, prefix) < e <= |names|
  {
    var f := FirstMatch(names, prefix);
    f + RunLength(names[f..], prefix)
  }

  /** The intended outcome: frozen exactly before the end of the first run. */
  function CutoffFlags(names: seq<string>, prefix: string): (r: seq<bool>)
    requires AnyMatch(names, prefix)
    ensures |r| == |names|
  {
    var e := RunEnd(names, prefix);
    seq(|names|, i requires 0 <= i < |names| => e <= i)
  }

  /** From the reached state the loop freezes the head run and nothing else. */
  lemma {:induction false} ScanReached(names: seq<string>, prefix: string)
    ensures var r := FreezeScan(names, prefix, true);
            && r.1
            && forall i :: 0 <= i < |names| ==> r.0[i] == (RunLength(names, prefix) <= i)
    decreases |names|
  {
    if names != [] && StartsWith(names[0], prefix) {
      ScanReached(names[1..], prefix);
      var t := FreezeScan(names[1..], prefix, true);
      assert forall i :: 1 <= i < |names| ==> ([false] + t.0)[i] == t.0[i - 1];
    }
  }

  /** Dropping a non-matching head keeps whether there is a match. */
  lemma AnyMatchTail(names: seq<string>, prefix: string)
    requires names != [] && !StartsWith(names[0], prefix)
    ensures AnyMatch(names, prefix) <==> AnyMatch(names[1..], prefix)
  {
    var rest := names[1..];
    if AnyMatch(names, prefix) {
      var k :| 0 <= k < |names| && StartsWith(names[k], prefix);
      assert rest[k - 1] == names[k];
    }
    if AnyMatch(rest, prefix) {
      var k :| 0 <= k < |rest| && StartsWith(rest[k], prefix);
      assert names[k + 1] == rest[k];
    }
  }

  /** The reference flags behind a non-matching head are those of the tail
      behind one frozen parameter. */
  lemma CutoffTail(names: seq<string>, prefix: string)
    requires names != [] && !StartsWith(names[0], prefix) && AnyMatch(names, prefix)
    ensures AnyMatch(names[1..], prefix)
    ensures CutoffFlags(names, prefix) == [false] + CutoffFlags(names[1..], prefix)
  {
    var rest := names[1..];
    AnyMatchTail(names, prefix);
    var f := FirstMatch(rest, prefix);
    assert FirstMatch(names, prefix) == f + 1;
    assert names[f + 1..] == rest[f..];
    assert RunEnd(names, prefix) == RunEnd(rest, prefix) + 1;
  }

  /** With a matching head the reference flags are the reached loop's. */
  lemma CutoffHead(names: seq<string>, prefix: string)
    requires names != [] && StartsWith(names[0], prefix)
    ensures AnyMatch(names, prefix)
    ensures CutoffFlags(names, prefix) == [false] + FreezeScan(names[1..], prefix, true).0
  {
    ScanReached(names[1..], prefix);
    assert names[0..] == names;
    assert RunEnd(names, prefix) == RunLength(names, prefix);
    assert RunLength(names, prefix) == 1 + RunLength(names[1..], prefix);
  }

  /** The loop of `freeze_model` matches the reference: with a match, the
      parameters through the end of the first run are frozen and the rest
      stay trainable; without one, every parameter is frozen and the layer
      is reported missing. */
  lemma {:induction false} ScanSpec(names: seq<string>, prefix: string)
    ensures var r := FreezeScan(names, prefix, false);
            && (r.1 <==> AnyMatch(names, prefix))
            && (AnyMatch(names, prefix) ==> r.0 == CutoffFlags(names, prefix))
            && (!AnyMatch(names, prefix) ==> r.0 == Constant(|names|, false))
    decreases |names|
  {
    if names == [] {
    } else if StartsWith(names[0], prefix) {
      CutoffHead(names, prefix);
      ScanReached(names[1..], prefix);
    } else {
      ScanSpec(names[1..], prefix);
      AnyMatchTail(names, prefix);
      if AnyMatch(names, prefix) {
        CutoffTail(names, prefix);
      } else {
        assert Constant(|names|, false) == [false] + Constant(|names| - 1, false);
      }
    }
  }

  /** The frozen parameters always form a prefix of the enumeration order. */
  lemma FrozenFormPrefix(names: seq<string>, prefix: string, i: nat, j: nat)
    requires i <= j < |names|
    ensures var flags := FreezeScan(names, prefix, false).0;
            !flags[j] ==> !flags[i]
  {
    ScanSpec(names, prefix);
  }

  /** A later match separated from the first run by a non-matching name
      stays trainable, because the loop has broken off. */
  lemma LaterMatchStaysTrainable(names: seq<string>, prefix: string, i: nat, k: nat, j: nat)
    requires i < k < j < |names|
    requires StartsWith(names[i], prefix) && !StartsWith(names[k], prefix) && StartsWith(names[j], prefix)
    ensures FreezeScan(names, prefix, false).0[j]
  {
    ScanSpec(names, prefix);
    var f := FirstMatch(names, prefix);
    var run := RunLength(names[f..], prefix);
    assert f <= i;
  }

  // ---------------------------------------------------------------------
  // freeze_bn

  /** The condition of `freeze_bn`: a batch-norm layer with affine
      parameters, none of which (recursively) is trainable. */
  predicate FrozenBn(m: Module) {
    && m.kind == BatchNorm
    && m.affine
    && forall p :: p in Params(m) ==> !p.trainable
  }

  /** `freeze_bn`: every module meeting the condition stops tracking running
      statistics and is put, with its whole subtree, in evaluation mode. */
  function FreezeBn(m: Module): Module
    decreases m
  {
    var kids := FreezeBnAll(m.children);
    if FrozenBn(m) then Eval(m.(trackRunningStats := false, children := kids))
    else m.(children := kids)
  }

  function FreezeBnAll(ms: seq<Module>): (r: seq<Module>)
    ensures |r| == |ms| && forall i :: 0 <= i < |ms| ==> r[i] == FreezeBn(ms[i])
    decreases ms
  {
    seq(|ms|, i requires 0 <= i < |ms| => FreezeBn(ms[i]))
  }

  /** The module itself or a module on the path below it meets the condition. */
  predicate FrozenAlong(m: Module, path: seq<nat>)
    decreases |path|
  {
    || FrozenBn(m)
    || (path != [] && path[0] < |m.children| && FrozenAlong(m.children[path[0]], path[1..]))
  }

  /** What `freeze_bn` does to each sub-module: tracking is switched off
      exactly where the condition holds, training is switched off exactly
      where it holds on the module or an ancestor, and nothing else changes. */
  lemma {:induction false} FreezeBnAt(m: Module, path: seq<nat>)
    ensures At(FreezeBn(m), path).Some? <==> At(m, path).Some?
    ensures At(m, path).Some? ==>
              var a := At(m, path).value;
              var b := At(FreezeBn(m), path).value;
              && b.kind == a.kind && b.affine == a.affine && b.params == a.params
              && b.trackRunningStats == (a.trackRunningStats && !FrozenBn(a))
              && b.training == (a.training && !FrozenAlong(m, path))
    decreases |path|
  {
    var r := FreezeBn(m);
    if path != [] && path[0] < |m.children| {
      var c := m.children[path[0]];
      FreezeBnAt(c, path[1..]);
      if FrozenBn(m) {
        assert r.children[path[0]] == SetTraining(FreezeBn(c), false);
        SetTrainingAt(FreezeBn(c), false, path[1..]);
      }
    }
  }

  /** `freeze_bn` does not touch the parameters. */
  lemma {:induction false} FreezeBnParams(m: Module)
    ensures Params(FreezeBn(m)) == Params(m)
    decreases m
  {
    var kids := FreezeBnAll(m.children);
    FreezeBnAllParams(m.children);
    if FrozenBn(m) {
      SetTrainingParams(m.(trackRunningStats := false, children := kids), false);
    }
  }

  lemma {:induction false} FreezeBnAllParams(ms: seq<Module>)
    ensures ParamsAll(FreezeBnAll(ms)) == ParamsAll(ms)
    decreases ms
  {
    if ms != [] {
      FreezeBnParams(ms[0]);
      assert FreezeBnAll(ms)[1..] == FreezeBnAll(ms[1..]);
      FreezeBnAllParams(ms[1..]);
    }
  }

  // ---------------------------------------------------------------------
  // freeze_model

  datatype FreezeError = LayerNotFound(prefix: string)

  datatype Freeze = Freeze(model: Module, outcome: Result<(), FreezeError>)

  /** `freeze_model(model, last_frozen_layer, frozen_bn_stat_update)`.  The
      model is returned as mutated, also when the error is raised.  Without
      a cutoff every parameter ends trainable; with a cutoff that some name
      matches, the flags are the loop's reference flags and `freeze_bn`
      runs unless statistics updates are forced; with a cutoff that no name
      matches, the error is raised after the loop has frozen every
      parameter, and `freeze_bn` does not run. */
  function FreezeModel(m: Module, lastFrozen: Option<string>, frozenBnStatUpdate: bool): (r: Freeze)
    ensures Names(Params(r.model)) == Names(Params(m))
    ensures lastFrozen.None? ==>
              var u := SetFlags(m, Constant(|Params(m)|, true));
              && r.outcome.Success?
              && Flags(Params(r.model)) == Constant(|Params(m)|, true)
              && r.model == (if frozenBnStatUpdate then u else FreezeBn(u))
    ensures lastFrozen.Some? && AnyMatch(Names(Params(m)), lastFrozen.value) ==>
              var c := CutoffFlags(Names(Params(m)), lastFrozen.value);
              && r.outcome.Success?
              && Flags(Params(r.model)) == c
              && r.model == (if frozenBnStatUpdate then SetFlags(m, c) else FreezeBn(SetFlags(m, c)))
    ensures lastFrozen.Some? && !AnyMatch(Names(Params(m)), lastFrozen.value) ==>
              && r.outcome == Failure(LayerNotFound(lastFrozen.value))
              && r.model == SetFlags(m, Constant(|Params(m)|, false))
  {
    var n := |Params(m)|;
    var u := SetFlags(m, Constant(n, true));
    assert Names(Params(u)) == Names(Params(m));
    if lastFrozen.None? then
      FreezeBnParams(u);
      SetFlagsFlags(m, Constant(n, true));
      Freeze(if frozenBnStatUpdate then u else FreezeBn(u), Success(()))
    else
      var scan := FreezeScan(Names(Params(u)), lastFrozen.value, false);
      var f := SetFlags(u, scan.0);
      ScanAfterUnfreeze(m, lastFrozen.value);
      assert Names(Params(f)) == Names(Params(m));
      FreezeBnParams(f);
      if !scan.1 then Freeze(f, Failure(LayerNotFound(lastFrozen.value)))
      else Freeze(if frozenBnStatUpdate then f else FreezeBn(f), Success(()))
  }

  /** The loop run after unfreezing: it reaches the layer iff some name
      matches, and its flags overwrite the unfrozen ones with the reference
      flags, or with all-frozen flags when nothing matches. */
  lemma ScanAfterUnfreeze(m: Module, prefix: string)
    ensures var n := |Params(m)|;
            var names := Names(Params(m));
            var u := SetFlags(m, Constant(n, true));
            var scan := FreezeScan(Names(Params(u)), prefix, false);
            var c := if AnyMatch(names, prefix) then CutoffFlags(names, prefix) else Constant(n, false);
            && (scan.1 <==> AnyMatch(names, prefix))
            && scan.0 == c
            && SetFlags(u, scan.0) == SetFlags(m, c)
            && Flags(Params(SetFlags(m, c))) == c
  {
    var n := |Params(m)|;
    var names := Names(Params(m));
    var u := SetFlags(m, Constant(n, true));
    assert Names(Params(u)) == names;
    ScanSpec(names, prefix);
    var c := if AnyMatch(names, prefix) then CutoffFlags(names, prefix) else Constant(n, false);
    SetFlagsTwice(m, Constant(n, true), c);
    SetFlagsFlags(m, c);
  }

  /** The last write of the flags wins. */
  lemma {:induction false} SetFlagsTwice(m: Module, a: seq<bool>, b: seq<bool>)
    requires |a| == |b| == |Params(m)|
    ensures SetFlags(SetFlags(m, a), b) == SetFlags(m, b)
    decreases m
  {
    var n := |m.params|;
    var ma := SetFlags(m, a);
    assert Params(ma) == ma.params + ParamsAll(ma.children);
    assert |ma.params| == n;
    assert b[n..] == b[n..];
    SetFlagsAllTwice(m.children, a[n..], b[n..]);
  }

  lemma {:induction false} SetFlagsAllTwice(ms: seq<Module>, a: seq<bool>, b: seq<bool>)
    requires |a| == |b| == |ParamsAll(ms)|
    ensures SetFlagsAll(SetFlagsAll(ms, a), b) == SetFlagsAll(ms, b)
    decreases ms
  {
    if ms != [] {
      var n := |Params(ms[0])|;
      var ra := SetFlagsAll(ms, a);
      assert ra[0] == SetFlags(ms[0], a[..n]) && ra[1..] == SetFlagsAll(ms[1..], a[n..]);
      SetFlagsTwice(ms[0], a[..n], b[..n]);
      SetFlagsAllTwice(ms[1..], a[n..], b[n..]);
    }
  }
}

=== FILE: lamb.dfy ===
/** The LAMB optimizer (holocron/optim/lamb.py): hyperparameter validation
    at construction, and the `step` pass that walks the parameter groups and
    applies the Adam-style moment update followed by the LARS-style trust
    ratio to every parameter that carries a dense gradient.

    Tensors are flattened to `Vector`s.  The optimizer's per-parameter
    state, keyed by tensor identity in the source, is a map from the
    parameter's index in the parameter sequence to its record.  The
    elementwise square root and the L2 norm are the parameters `sqrt` and
    `norm` (see module Vectors). */
module Lamb {
  import opened Outcomes
  import opened Vectors

  /** The per-group hyperparameters: the keys lr, betas, eps, weight_decay. */
  datatype Hyper = Hyper(lr: real, beta1: real, beta2: real, eps: real, weightDecay: real)

  /** Lower and upper clamp bounds for the parameter norm (`scale_clip`). */
  datatype Bounds = Bounds(lo: real, hi: real)

  const DefaultScaleClip := Bounds(0.0, 10.0)

  /** A parameter group as handed to the constructor: parameter indices and
      the hyperparameters it overrides (`None` = use the default). */
  datatype GroupSpec = GroupSpec(
    params: seq<nat>,
    lr: Option<real>,
    betas: Option<(real, real)>,
    eps: Option<real>,
    weightDecay: Option<real>)

  /** A parameter group with every hyperparameter resolved. */
  datatype Group = Group(params: seq<nat>, hyper: Hyper)

  /** The lazily created per-parameter state: the step counter, the two
      moment accumulators and the last local learning rate (absent until
      the first update completes). */
  datatype ParamState = ParamState(step: nat, expAvg: Vector, expAvgSq: Vector, localLr: Option<real>)

  /** The gradient attached to a parameter. */
  datatype Grad = NoGrad | Dense(values: Vector) | Sparse

  /** A parameter tensor: its value and its gradient. */
  datatype Tensor = Tensor(data: Vector, grad: Grad)

  /** The optimizer: its defaults, its resolved groups, the optimizer-wide
      `scale_clip`, and the per-parameter state. */
  datatype Optimizer = Optimizer(defaults: Hyper, groups: seq<Group>, scaleClip: Bounds, state: map<nat, ParamState>)

  /** The constructor's ValueError cases: its own hyperparameter checks,
      then those of torch's `Optimizer` base class on the parameters. */
  datatype ConfigError = InvalidLr | InvalidEps | InvalidBeta(index: nat) | EmptyParamList | ParamInTwoGroups

  /** The conditions the constructor checks; weight decay is not checked. */
  predicate ValidHyper(h: Hyper) {
    && 0.0 <= h.lr
    && 0.0 <= h.eps
    && 0.0 <= h.beta1 < 1.0
    && 0.0 <= h.beta2 < 1.0
  }

  /** A group inherits every hyperparameter it does not override. */
  function Resolve(spec: GroupSpec, d: Hyper): Group {
    var betas := spec.betas.GetOr((d.beta1, d.beta2));
    Group(spec.params, Hyper(spec.lr.GetOr(d.lr), betas.0, betas.1, spec.eps.GetOr(d.eps), spec.weightDecay.GetOr(d.weightDecay)))
  }

  /** Two parameter lists share a parameter. */
  predicate Clash(a: seq<nat>, b: seq<nat>) {
    exists p :: p in a && p in b
  }

  /** Some parameter is listed by two different groups. */
  predicate SharedParam(specs: seq<GroupSpec>) {
    exists i, j :: 0 <= i < j < |specs| && Clash(specs[i].params, specs[j].params)
  }

  /** torch's `add_param_group` for the groups from index `k` on, in
      order: a group is rejected when it shares a parameter with the
      groups added before it. */
  function AddGroups(specs: seq<GroupSpec>, k: nat): (ok: bool)
    requires k <= |specs|
    ensures ok <==> forall i, j :: 0 <= i < j < |specs| && k <= j ==> !Clash(specs[i].params, specs[j].params)
    decreases |specs| - k
  {
    if k == |specs| then true
    else (forall i :: 0 <= i < k ==> !Clash(specs[i].params, specs[k].params)) && AddGroups(specs, k + 1)
  }

  /** `LAMB.__init__`: its four checks in source order, then the base
      class's rejection of an empty parameter list and of a parameter in
      two groups, then the groups and the scale_clip default. */
  function Create(specs: seq<GroupSpec>, defaults: Hyper, scaleClip: Option<Bounds>): (r: Result<Optimizer, ConfigError>)
    ensures r.Success? <==> ValidHyper(defaults) && specs != [] && !SharedParam(specs)
    ensures defaults.lr < 0.0 ==> r == Failure(InvalidLr)
    ensures 0.0 <= defaults.lr && defaults.eps < 0.0 ==> r == Failure(InvalidEps)
    ensures (0.0 <= defaults.lr && 0.0 <= defaults.eps && !(0.0 <= defaults.beta1 < 1.0))
              ==> r == Failure(InvalidBeta(0))
    ensures (0.0 <= defaults.lr && 0.0 <= defaults.eps && 0.0 <= defaults.beta1 < 1.0 && !(0.0 <= defaults.beta2 < 1.0))
              ==> r == Failure(InvalidBeta(1))
    ensures ValidHyper(defaults) && specs == [] ==> r == Failure(EmptyParamList)
    ensures ValidHyper(defaults) && specs != [] && SharedParam(specs) ==> r == Failure(ParamInTwoGroups)
    ensures r.Success? ==>
      && r.value.defaults == defaults
      && r.value.state == map[]
      && r.value.scaleClip == (if scaleClip.None? then DefaultScaleClip else scaleClip.value)
      && |r.value.groups| == |specs|
      && forall i :: 0 <= i < |specs| ==>
           && r.value.groups[i].params == specs[i].params
           && r.value.groups[i].hyper.lr == (if specs[i].lr.Some? then specs[i].lr.value else defaults.lr)
           && r.value.groups[i].hyper.weightDecay
                == (if specs[i].weightDecay.Some? then specs[i].weightDecay.value else defaults.weightDecay)
           && r.value.groups[i].hyper.eps == (if specs[i].eps.Some? then specs[i].eps.value else defaults.eps)
           && (r.value.groups[i].hyper.beta1, r.value.groups[i].hyper.beta2)
                == (if specs[i].betas.Some? then specs[i].betas.value else (defaults.beta1, defaults.beta2))
  {
    if defaults.lr < 0.0 then Failure(InvalidLr)
    else if defaults.eps < 0.0 then Failure(InvalidEps)
    else if !(0.0 <= defaults.beta1 < 1.0) then Failure(InvalidBeta(0))
    else if !(0.0 <= defaults.beta2 < 1.0) then Failure(InvalidBeta(1))
    else if specs == [] then Failure(EmptyParamList)
    else if !AddGroups(specs, 0) then Failure(ParamInTwoGroups)
    else
      var groups := seq(|specs|, i requires 0 <= i < |specs| => Resolve(specs[i], defaults));
      Success(Optimizer(defaults, groups, scaleClip.GetOr(DefaultScaleClip), map[]))
  }

  // ---------------------------------------------------------------------
  // The per-parameter update rule

  /** The first-moment update: the running average decays by `beta1` and
      takes in the gradient with weight `1 - beta1`. */
  function FirstMoment(m: Vector, g: Vector, beta1: real): (r: Vector)
    requires |m| == |g|
    ensures |r| == |g|
    ensures forall k :: 0 <= k < |g| ==> r[k] == beta1 * m[k] + (1.0 - beta1) * g[k]
  {
    seq(|g|, k requires 0 <= k < |g| => beta1 * m[k] + (1.0 - beta1) * g[k])
  }

  /** The second-moment update: the running average of squared gradients
      decays by `beta2` and takes in the squared gradient with weight
      `1 - beta2`. */
  function SecondMoment(v: Vector, g: Vector, beta2: real): (r: Vector)
    requires |v| == |g|
    ensures |r| == |g|
    ensures forall k :: 0 <= k < |g| ==> r[k] == beta2 * v[k] + (1.0 - beta2) * (g[k] * g[k])
  {
    seq(|g|, k requires 0 <= k < |g| => beta2 * v[k] + (1.0 - beta2) * (g[k] * g[k]))
  }

  /** No element of the denominator `sqrt(v) + eps` is zero. */
  ghost predicate DenomsNonZero(sqrt: real -> real, v: Vector, eps: real) {
    forall k :: 0 <= k < |v| ==> sqrt(v[k]) + eps != 0.0
  }

  /** The adaptive ratio `m / (sqrt(v) + eps)`, uncorrected for bias. */
  function Ratio(sqrt: real -> real, m: Vector, v: Vector, eps: real): (r: Vector)
    requires |m| == |v|
    requires DenomsNonZero(sqrt, v, eps)
    ensures |r| == |m|
  {
    seq(|m|, k requires 0 <= k < |m| => m[k] / (sqrt(v[k]) + eps))
  }

  /** The update direction: the ratio, plus `wd * theta` when wd != 0. */
  function Direction(sqrt: real -> real, m: Vector, v: Vector, eps: real, wd: real, theta: Vector): (u: Vector)
    requires |m| == |v| == |theta|
    requires DenomsNonZero(sqrt, v, eps)
    ensures |u| == |theta|
  {
    var r := Ratio(sqrt, m, v, eps);
    if wd != 0.0 then Add(r, Scale(wd, theta)) else r
  }

  /** `torch.clamp(x, lo, hi)`, i.e. `min(max(x, lo), hi)`. */
  function Clamp(x: real, b: Bounds): (r: real)
    ensures b.lo <= b.hi ==> b.lo <= r <= b.hi
    ensures b.lo <= x <= b.hi ==> r == x
    ensures x < b.lo && b.lo <= b.hi ==> r == b.lo
    ensures b.hi < x ==> r == b.hi
    ensures b.hi < b.lo ==> r == b.hi
  {
    var low := if x < b.lo then b.lo else x;
    if b.hi < low then b.hi else low
  }

  /** The local learning rate (trust ratio). */
  function LocalLr(phi: real, updateNorm: real): (r: real)
    ensures phi == 0.0 || updateNorm == 0.0 ==> r == 1.0
    ensures phi != 0.0 && updateNorm != 0.0 ==> r * updateNorm == phi
  {
    if phi == 0.0 || updateNorm == 0.0 then 1.0 else phi / updateNorm
  }

  /** `after` is `before` moved against `u` by `lr * localLr` times it,
      entry by entry. */
  ghost predicate MovedBy(before: Vector, after: Vector, lr: real, localLr: real, u: Vector)
    requires |after| == |before| == |u|
  {
    forall k :: 0 <= k < |before| ==> before[k] - after[k] == lr * localLr * u[k]
  }

  /** The in-place parameter move: the value steps against the update,
      scaled by the group's learning rate times the local one. */
  function Apply(theta: Vector, u: Vector, lr: real, localLr: real): (r: Vector)
    requires |u| == |theta|
    ensures |r| == |theta|
    ensures Sub(theta, r) == Scale(lr * localLr, u)
    ensures MovedBy(theta, r, lr, localLr, u)
  {
    var r := Add(theta, Scale(-lr * localLr, u));
    assert Sub(theta, r) == Scale(lr * localLr, u) by {
      forall k | 0 <= k < |theta| ensures Sub(theta, r)[k] == Scale(lr * localLr, u)[k] {
        NegatedProduct(lr * localLr, u[k]);
      }
    }
    r
  }

  lemma NegatedProduct(c: real, x: real)
    ensures (-c) * x == -(c * x)
  {
  }

  /** The state a parameter is updated from: its record, or on first
      encounter a fresh one with step 0 and zero moments. */
  function Start(prior: Option<ParamState>, n: nat): ParamState {
    if prior.Some? then prior.value else ParamState(0, Zeros(n), Zeros(n), None)
  }

  /** The state's accumulators have the parameter's shape. */
  ghost predicate Shaped(s: ParamState, n: nat) {
    |s.expAvg| == n && |s.expAvgSq| == n
  }

  /** Every division of one update is by a non-zero denominator. */
  ghost predicate Defined(sqrt: real -> real, h: Hyper, g: Vector, s: ParamState)
    requires |s.expAvgSq| == |g|
  {
    DenomsNonZero(sqrt, SecondMoment(s.expAvgSq, g, h.beta2), h.eps)
  }

  /** The outcome of one update: the new value and the new state. */
  datatype Updated = Updated(data: Vector, state: ParamState)

  /** The LARS part of one update: the trust ratio of the clamped parameter
      norm against the norm of the update direction `u`, and the value moved
      against `u` at `lr` times that ratio. */
  function TrustMove(norm: Vector -> real, lr: real, clip: Bounds, theta: Vector, u: Vector): (r: (Vector, real))
    requires |u| == |theta|
    ensures |r.0| == |theta|
    ensures MovedBy(theta, r.0, lr, r.1, u)
    ensures var phi := Clamp(norm(theta), clip);
            && (phi == 0.0 || norm(u) == 0.0 ==> r.1 == 1.0)
            && (phi != 0.0 && norm(u) != 0.0 ==> r.1 * norm(u) == phi)
  {
    var localLr := LocalLr(Clamp(norm(theta), clip), norm(u));
    (Apply(theta, u, lr, localLr), localLr)
  }

  /** The update of one parameter with a dense gradient: the step counter
      advances, both moments take in the gradient, and the value moves
      against the update direction at the group's learning rate times the
      trust ratio, which is stored as the local learning rate. */
  function UpdateOne(
    sqrt: real -> real, norm: Vector -> real, h: Hyper, clip: Bounds,
    theta: Vector, g: Vector, prior: Option<ParamState>): (r: Updated)
    requires |g| == |theta|
    requires prior.Some? ==> Shaped(prior.value, |theta|)
    requires Defined(sqrt, h, g, Start(prior, |theta|))
    ensures |r.data| == |theta|
    ensures Shaped(r.state, |theta|)
    ensures r.state.step == Start(prior, |theta|).step + 1
    ensures var s := Start(prior, |theta|);
            && r.state.expAvg == FirstMoment(s.expAvg, g, h.beta1)
            && r.state.expAvgSq == SecondMoment(s.expAvgSq, g, h.beta2)
    ensures r.state.localLr.Some?
    ensures var u := DirectionOf(sqrt, h, theta, g, Start(prior, |theta|));
            var phi := Clamp(norm(theta), clip);
            && MovedBy(theta, r.data, h.lr, r.state.localLr.value, u)
            && (phi == 0.0 || norm(u) == 0.0 ==> r.state.localLr == Some(1.0))
            && (phi != 0.0 && norm(u) != 0.0 ==> r.state.localLr.value * norm(u) == phi)
  {
    var s := Start(prior, |theta|);
    var u := DirectionOf(sqrt, h, theta, g, s);
    var m := TrustMove(norm, h.lr, clip, theta, u);
    var next := ParamState(s.step + 1, FirstMoment(s.expAvg, g, h.beta1), SecondMoment(s.expAvgSq, g, h.beta2), Some(m.1));
    assert next.localLr.value == m.1;
    Updated(m.0, next)
  }

  /** The update direction computed from state `s` and gradient `g`. */
  function DirectionOf(sqrt: real -> real, h: Hyper, theta: Vector, g: Vector, s: ParamState): (u: Vector)
    requires |g| == |theta| && Shaped(s, |theta|)
    requires Defined(sqrt, h, g, s)
    ensures |u| == |theta|
  {
    Direction(sqrt, FirstMoment(s.expAvg, g, h.beta1), SecondMoment(s.expAvgSq, g, h.beta2), h.eps, h.weightDecay, theta)
  }

  // ---------------------------------------------------------------------
  // The step pass over all groups

  /** One visit of the walk: a parameter index and its group's hyperparameters. */
  datatype Slot = Slot(hyper: Hyper, index: nat)

  function Slots(g: Group): (s: seq<Slot>)
    ensures |s| == |g.params|
    ensures forall k :: 0 <= k < |s| ==> s[k] == Slot(g.hyper, g.params[k])
  {
    seq(|g.params|, k requires 0 <= k < |g.params| => Slot(g.hyper, g.params[k]))
  }

  /** The visiting order of `step`: groups in order, each group's
      parameters in order. */
  function Schedule(groups: seq<Group>): seq<Slot> {
    if groups == [] then [] else Slots(groups[0]) + Schedule(groups[1..])
  }

  function Prior(state: map<nat, ParamState>, i: nat): Option<ParamState> {
    if i in state then Some(state[i]) else None
  }

  /** Shapes agree: scheduled indices exist, dense gradients and states
      have their parameter's length. */
  ghost predicate Fits(sched: seq<Slot>, params: seq<Tensor>, state: map<nat, ParamState>) {
    && (forall k :: 0 <= k < |sched| ==> sched[k].index < |params|)
    && (forall i :: 0 <= i < |params| && params[i].grad.Dense? ==> |params[i].grad.values| == |params[i].data|)
    && (forall i :: 0 <= i < |params| && i in state ==> Shaped(state[i], |params[i].data|))
  }

  /** The state of the walk after a prefix of the schedule. */
  datatype Pass = Pass(params: seq<Tensor>, state: map<nat, ParamState>, hitSparse: bool)

  /** The effect of visiting a slot whose parameter has a dense gradient. */
  function Visit(
    sqrt: real -> real, norm: Vector -> real, clip: Bounds, slot: Slot,
    params: seq<Tensor>, state: map<nat, ParamState>): (r: Pass)
    requires slot.index < |params| && params[slot.index].grad.Dense?
    requires Fits([slot], params, state)
    requires var i := slot.index;
             Defined(sqrt, slot.hyper, params[i].grad.values, Start(Prior(state, i), |params[i].data|))
    ensures |r.params| == |params|
    ensures forall i :: 0 <= i < |params| ==> r.params[i].grad == params[i].grad && |r.params[i].data| == |params[i].data|
    ensures forall i :: 0 <= i < |params| && i != slot.index ==> r.params[i] == params[i]
    ensures r.state.Keys == state.Keys + {slot.index}
    ensures forall i :: i in state && i != slot.index ==> r.state[i] == state[i]
    ensures !r.hitSparse
  {
    var i := slot.index;
    var u := UpdateOne(sqrt, norm, slot.hyper, clip, params[i].data, params[i].grad.values, Prior(state, i));
    Pass(params[i := Tensor(u.data, params[i].grad)], state[i := u.state], false)
  }

  lemma FitsAfterVisit(
    sqrt: real -> real, norm: Vector -> real, clip: Bounds, sched: seq<Slot>,
    params: seq<Tensor>, state: map<nat, ParamState>)
    requires sched != [] && Fits(sched, params, state)
    requires params[sched[0].index].grad.Dense?
    requires var i := sched[0].index;
             Defined(sqrt, sched[0].hyper, params[i].grad.values, Start(Prior(state, i), |params[i].data|))
    ensures var p := Visit(sqrt, norm, clip, sched[0], params, state);
            Fits(sched[1..], p.params, p.state)
  {
    assert Fits([sched[0]], params, state);
    var p := Visit(sqrt, norm, clip, sched[0], params, state);
    var i := sched[0].index;
    var u := UpdateOne(sqrt, norm, sched[0].hyper, clip, params[i].data, params[i].grad.values, Prior(state, i));
    assert p.state[i] == u.state;
  }

  /** Every division the walk reaches has a non-zero denominator: the
      model's stand-in for the source's floating-point division, which
      would otherwise produce NaN or infinity. */
  ghost predicate WalkDefined(
    sqrt: real -> real, norm: Vector -> real, clip: Bounds, sched: seq<Slot>,
    params: seq<Tensor>, state: map<nat, ParamState>)
    requires Fits(sched, params, state)
    decreases |sched|
  {
    if sched == [] then true
    else
      var i := sched[0].index;
      match params[i].grad
      case NoGrad => WalkDefined(sqrt, norm, clip, sched[1..], params, state)
      case Sparse => true
      case Dense(g) =>
        && Defined(sqrt, sched[0].hyper, g, Start(Prior(state, i), |params[i].data|))
        && assert Fits([sched[0]], params, state);
           var p := Visit(sqrt, norm, clip, sched[0], params, state);
           FitsAfterVisit(sqrt, norm, clip, sched, params, state);
           WalkDefined(sqrt, norm, clip, sched[1..], p.params, p.state)
  }

  /** The loop of `step`: skip a parameter without gradient, stop at a
      sparse gradient (keeping what was already updated), update the rest. */
  function Walk(
    sqrt: real -> real, norm: Vector -> real, clip: Bounds, sched: seq<Slot>,
    params: seq<Tensor>, state: map<nat, ParamState>): (r: Pass)
    requires Fits(sched, params, state)
    requires WalkDefined(sqrt, norm, clip, sched, params, state)
    ensures |r.params| == |params|
    ensures forall i :: 0 <= i < |params| ==> r.params[i].grad == params[i].grad && |r.params[i].data| == |params[i].data|
    ensures state.Keys <= r.state.Keys
    decreases |sched|
  {
    if sched == [] then Pass(params, state, false)
    else
      var i := sched[0].index;
      match params[i].grad
      case NoGrad => Walk(sqrt, norm, clip, sched[1..], params, state)
      case Sparse => Pass(params, state, true)
      case Dense(g) =>
        assert Fits([sched[0]], params, state);
        var p := Visit(sqrt, norm, clip, sched[0], params, state);
        FitsAfterVisit(sqrt, norm, clip, sched, params, state);
        Walk(sqrt, norm, clip, sched[1..], p.params, p.state)
  }

  /** What `step` returns: the closure's loss, or the sparse-gradient error. */
  datatype StepOutcome = Returned(loss: Option<real>) | SparseGradientError

  datatype StepResult = StepResult(opt: Optimizer, params: seq<Tensor>, outcome: StepOutcome)

  /** The preconditions of `step`: shapes agree and no division is by zero. */
  ghost predicate CanStep(sqrt: real -> real, norm: Vector -> real, opt: Optimizer, params: seq<Tensor>) {
    && Fits(Schedule(opt.groups), params, opt.state)
    && WalkDefined(sqrt, norm, opt.scaleClip, Schedule(opt.groups), params, opt.state)
  }

  /** `LAMB.step(closure)`.  The closure runs first; `closureLoss` is what
      it returned (None when no closure is given) and `params` carries the
      gradients as they are after it ran. */
  function Step(
    sqrt: real -> real, norm: Vector -> real, opt: Optimizer,
    params: seq<Tensor>, closureLoss: Option<real>): (r: StepResult)
    requires CanStep(sqrt, norm, opt, params)
    ensures r.opt.defaults == opt.defaults && r.opt.groups == opt.groups && r.opt.scaleClip == opt.scaleClip
    ensures |r.params| == |params|
    ensures r.outcome.Returned? ==> r.outcome.loss == closureLoss
  {
    var p := Walk(sqrt, norm, opt.scaleClip, Schedule(opt.groups), params, opt.state);
    StepResult(opt.(state := p.state), p.params, if p.hitSparse then SparseGradientError else Returned(closureLoss))
  }
}

=== FILE: lamb_laws.dfy ===
/** Properties of the LAMB model: the single-parameter update rule, and
    what one `step` pass does to every parameter. */
module LambLaws {
  import opened Outcomes
  import opened Vectors
  import opened Lamb

  // ---------------------------------------------------------------------
  // One parameter

  /** A parameter updated for the first time starts from zero moments, so
      after the update its counter is 1 and its moments are the gradient and
      its square scaled by `1 - beta`: no bias correction is applied. */
  lemma FreshFirstUpdate(
    sqrt: real -> real, norm: Vector -> real, h: Hyper, clip: Bounds, theta: Vector, g: Vector)
    requires |g| == |theta| && Defined(sqrt, h, g, Start(None, |theta|))
    ensures var r := UpdateOne(sqrt, norm, h, clip, theta, g, None);
            && r.state.step == 1
            && r.state.expAvg == Scale(1.0 - h.beta1, g)
            && (forall k :: 0 <= k < |g| ==> r.state.expAvgSq[k] == (1.0 - h.beta2) * (g[k] * g[k]))
  {
    var r := UpdateOne(sqrt, norm, h, clip, theta, g, None);
    var z := Zeros(|theta|);
    assert r.state.expAvg == FirstMoment(z, g, h.beta1);
    assert r.state.expAvgSq == SecondMoment(z, g, h.beta2);
    MomentsFromZero(g, h.beta1, h.beta2);
  }

  /** Moments started from zero are the scaled gradient and its square. */
  lemma MomentsFromZero(g: Vector, beta1: real, beta2: real)
    ensures FirstMoment(Zeros(|g|), g, beta1) == Scale(1.0 - beta1, g)
    ensures forall k :: 0 <= k < |g| ==> SecondMoment(Zeros(|g|), g, beta2)[k] == (1.0 - beta2) * (g[k] * g[k])
  {
    var z := Zeros(|g|);
    forall k | 0 <= k < |g| ensures FirstMoment(z, g, beta1)[k] == Scale(1.0 - beta1, g)[k] {
      assert z[k] == 0.0;
    }
    forall k | 0 <= k < |g| ensures SecondMoment(z, g, beta2)[k] == (1.0 - beta2) * (g[k] * g[k]) {
      assert z[k] == 0.0;
    }
  }

  /** A zero gradient only decays the moments by their betas. */
  lemma ZeroGradientDecays(
    sqrt: real -> real, norm: Vector -> real, h: Hyper, clip: Bounds,
    theta: Vector, g: Vector, prior: Option<ParamState>)
    requires |g| == |theta| && IsZero(g)
    requires prior.Some? ==> Shaped(prior.value, |theta|)
    requires Defined(sqrt, h, g, Start(prior, |theta|))
    ensures var r := UpdateOne(sqrt, norm, h, clip, theta, g, prior);
            var s := Start(prior, |theta|);
            && r.state.expAvg == Scale(h.beta1, s.expAvg)
            && r.state.expAvgSq == Scale(h.beta2, s.expAvgSq)
  {
    var r := UpdateOne(sqrt, norm, h, clip, theta, g, prior);
    var s := Start(prior, |theta|);
    assert r.state.expAvg == Scale(h.beta1, s.expAvg);
    assert r.state.expAvgSq == Scale(h.beta2, s.expAvgSq);
  }

  /** Weight decay enters the direction only as the added term `wd * theta`;
      with `wd == 0` the direction is the plain adaptive ratio. */
  lemma WeightDecayIsolation(sqrt: real -> real, m: Vector, v: Vector, eps: real, wd: real, theta: Vector)
    requires |m| == |v| == |theta| && DenomsNonZero(sqrt, v, eps)
    ensures Direction(sqrt, m, v, eps, 0.0, theta) == Ratio(sqrt, m, v, eps)
    ensures Direction(sqrt, m, v, eps, wd, theta) == Add(Ratio(sqrt, m, v, eps), Scale(wd, theta))
  {
    var r := Ratio(sqrt, m, v, eps);
    if wd == 0.0 {
      assert Add(r, Scale(wd, theta)) == r;
    }
  }

  lemma AbsScaled(lr: real, llr: real, n: real, phi: real)
    requires 0.0 < n && llr * n == phi
    ensures Abs(lr * llr) * n == Abs(lr * phi)
  {
    assert (lr * llr) * n == lr * phi;
    if lr * llr < 0.0 {
      assert 0.0 <= (-(lr * llr)) * n;
    } else {
      assert 0.0 <= (lr * llr) * n;
    }
  }

  /** A step along `u` at a rate `llr` with `llr * norm(u) == phi` has
      norm `|lr * phi|`. */
  lemma TrustRatioMove(norm: Vector -> real, theta: Vector, u: Vector, lr: real, llr: real, phi: real)
    requires NormHomogeneous(norm) && |u| == |theta|
    requires 0.0 < norm(u) && llr * norm(u) == phi
    ensures norm(Sub(theta, Apply(theta, u, lr, llr))) == Abs(lr * phi)
  {
    var n := norm(u);
    var d := Sub(theta, Apply(theta, u, lr, llr));
    assert d == Scale(lr * llr, u);
    assert norm(d) == Abs(lr * llr) * n;
    AbsScaled(lr, llr, n, phi);
  }

  /** At local rate 1 the step is the plain `lr` step. */
  lemma ApplyUnitRate(theta: Vector, u: Vector, lr: real)
    requires |u| == |theta|
    ensures Apply(theta, u, lr, 1.0) == Sub(theta, Scale(lr, u))
  {
    var r := Apply(theta, u, lr, 1.0);
    forall k | 0 <= k < |theta| ensures r[k] == Sub(theta, Scale(lr, u))[k] {
      assert Sub(theta, r)[k] == Scale(lr * 1.0, u)[k];
    }
  }

  /** A zero direction leaves the value unchanged at any rate. */
  lemma ApplyZeroDirection(theta: Vector, u: Vector, lr: real, llr: real)
    requires |u| == |theta| && IsZero(u)
    ensures Apply(theta, u, lr, llr) == theta
  {
    var r := Apply(theta, u, lr, llr);
    forall k | 0 <= k < |theta| ensures r[k] == theta[k] {
      assert Sub(theta, r)[k] == Scale(lr * llr, u)[k];
      assert u[k] == 0.0;
    }
  }

  /** The trust ratio: when the clamped parameter norm `phi` and the norm of
      the direction are both non-zero, the parameter moves by exactly
      `|lr * phi|` in norm, whatever the size of the direction. */
  lemma TrustRatioStep(
    sqrt: real -> real, norm: Vector -> real, h: Hyper, clip: Bounds,
    theta: Vector, g: Vector, prior: Option<ParamState>)
    requires NormNonNegative(norm) && NormHomogeneous(norm)
    requires |g| == |theta|
    requires prior.Some? ==> Shaped(prior.value, |theta|)
    requires Defined(sqrt, h, g, Start(prior, |theta|))
    ensures var r := UpdateOne(sqrt, norm, h, clip, theta, g, prior);
            var u := DirectionOf(sqrt, h, theta, g, Start(prior, |theta|));
            var phi := Clamp(norm(theta), clip);
            phi != 0.0 && norm(u) != 0.0 ==>
              && norm(Sub(theta, r.data)) == Abs(h.lr * phi)
              && r.state.localLr.value * norm(u) == phi
  {
    var u := DirectionOf(sqrt, h, theta, g, Start(prior, |theta|));
    var phi := Clamp(norm(theta), clip);
    var r := UpdateOne(sqrt, norm, h, clip, theta, g, prior);
    if phi != 0.0 && norm(u) != 0.0 {
      var llr := LocalLr(phi, norm(u));
      assert r.data == Apply(theta, u, h.lr, llr);
      TrustRatioMove(norm, theta, u, h.lr, llr, phi);
    }
  }

  /** Without a trust ratio (a zero clamped norm or a zero direction) the
      local learning rate is 1 and the parameter takes a plain `lr` step;
      a zero direction therefore leaves the parameter unchanged. */
  lemma DegenerateStep(
    sqrt: real -> real, norm: Vector -> real, h: Hyper, clip: Bounds,
    theta: Vector, g: Vector, prior: Option<ParamState>)
    requires NormZeroIff(norm)
    requires |g| == |theta|
    requires prior.Some? ==> Shaped(prior.value, |theta|)
    requires Defined(sqrt, h, g, Start(prior, |theta|))
    ensures var r := UpdateOne(sqrt, norm, h, clip, theta, g, prior);
            var u := DirectionOf(sqrt, h, theta, g, Start(prior, |theta|));
            var phi := Clamp(norm(theta), clip);
            && (phi == 0.0 || norm(u) == 0.0 ==>
                  r.state.localLr == Some(1.0) && r.data == Sub(theta, Scale(h.lr, u)))
            && (norm(u) == 0.0 ==> r.data == theta)
  {
    var u := DirectionOf(sqrt, h, theta, g, Start(prior, |theta|));
    var phi := Clamp(norm(theta), clip);
    var r := UpdateOne(sqrt, norm, h, clip, theta, g, prior);
    assert r.data == Apply(theta, u, h.lr, LocalLr(phi, norm(u)));
    if phi == 0.0 || norm(u) == 0.0 {
      ApplyUnitRate(theta, u, h.lr);
    }
    if norm(u) == 0.0 {
      assert IsZero(u);
      ApplyZeroDirection(theta, u, h.lr, 1.0);
    }
  }

  /** A fresh parameter with a zero gradient and no weight decay keeps its
      value: both moments are zero, hence so is the direction. */
  lemma FreshZeroGradientKeepsValue(
    sqrt: real -> real, norm: Vector -> real, h: Hyper, clip: Bounds, theta: Vector, g: Vector)
    requires NormZeroIff(norm)
    requires |g| == |theta| && IsZero(g) && h.weightDecay == 0.0
    requires Defined(sqrt, h, g, Start(None, |theta|))
    ensures UpdateOne(sqrt, norm, h, clip, theta, g, None).data == theta
  {
    var s := Start(None, |theta|);
    var u := DirectionOf(sqrt, h, theta, g, s);
    var v := SecondMoment(s.expAvgSq, g, h.beta2);
    forall k | 0 <= k < |theta| ensures u[k] == 0.0 {
      assert FirstMoment(s.expAvg, g, h.beta1)[k] == 0.0;
      assert u[k] * (sqrt(v[k]) + h.eps) == 0.0;
    }
    assert IsZero(u);
    DegenerateStep(sqrt, norm, h, clip, theta, g, None);
  }

  // ---------------------------------------------------------------------
  // When the walk is defined

  /** Positive eps, `beta2` in [0, 1] and non-negative second moments. */
  ghost predicate Conditioned(sched: seq<Slot>, state: map<nat, ParamState>) {
    && (forall k :: 0 <= k < |sched| ==> 0.0 < sched[k].hyper.eps && 0.0 <= sched[k].hyper.beta2 <= 1.0)
    && MomentsNonNegative(state)
  }

  /** Every stored second moment is non-negative. */
  ghost predicate MomentsNonNegative(state: map<nat, ParamState>) {
    forall i :: i in state ==> NonNegative(state[i].expAvgSq)
  }

  predicate NonNegative(v: Vector) {
    forall k :: 0 <= k < |v| ==> 0.0 <= v[k]
  }

  lemma NonNegativeProduct(a: real, b: real)
    requires 0.0 <= a && 0.0 <= b
    ensures 0.0 <= a * b
  {
  }

  lemma SecondMomentNonNegative(v: Vector, g: Vector, beta2: real)
    requires |v| == |g| && NonNegative(v) && 0.0 <= beta2 <= 1.0
    ensures NonNegative(SecondMoment(v, g, beta2))
  {
    forall k | 0 <= k < |g| ensures 0.0 <= SecondMoment(v, g, beta2)[k] {
      NonNegativeProduct(beta2, v[k]);
      assert 0.0 <= g[k] * g[k];
      NonNegativeProduct(1.0 - beta2, g[k] * g[k]);
    }
  }

  /** With a true square root, positive eps, `beta2` in [0, 1] and
      non-negative second moments, no denominator of the walk is zero. */
  lemma {:induction false} ConditionedWalkDefined(
    sqrt: real -> real, norm: Vector -> real, clip: Bounds, sched: seq<Slot>,
    params: seq<Tensor>, state: map<nat, ParamState>)
    requires IsSqrt(sqrt)
    requires Fits(sched, params, state) && Conditioned(sched, state)
    ensures WalkDefined(sqrt, norm, clip, sched, params, state)
    decreases |sched|
  {
    if sched != [] {
      var i := sched[0].index;
      match params[i].grad
      case NoGrad =>
        ConditionedWalkDefined(sqrt, norm, clip, sched[1..], params, state);
      case Sparse =>
      case Dense(g) =>
        var h := sched[0].hyper;
        var s := Start(Prior(state, i), |params[i].data|);
        assert NonNegative(s.expAvgSq);
        var v := SecondMoment(s.expAvgSq, g, h.beta2);
        SecondMomentNonNegative(s.expAvgSq, g, h.beta2);
        assert Defined(sqrt, h, g, s) by {
          forall k | 0 <= k < |v| ensures sqrt(v[k]) + h.eps != 0.0 {
            assert 0.0 <= sqrt(v[k]);
          }
        }
        assert Fits([sched[0]], params, state);
        var p := Visit(sqrt, norm, clip, sched[0], params, state);
        FitsAfterVisit(sqrt, norm, clip, sched, params, state);
        assert p.state[i].expAvgSq == v;
        assert Conditioned(sched[1..], p.state);
        ConditionedWalkDefined(sqrt, norm, clip, sched[1..], p.params, p.state);
    }
  }

  /** Visiting a slot keeps the conditions for the rest of the schedule. */
  lemma VisitKeepsConditioned(
    sqrt: real -> real, norm: Vector -> real, clip: Bounds, sched: seq<Slot>,
    params: seq<Tensor>, state: map<nat, ParamState>)
    requires sched != [] && Fits(sched, params, state) && Conditioned(sched, state)
    requires params[sched[0].index].grad.Dense?
    requires var i := sched[0].index;
             Defined(sqrt, sched[0].hyper, params[i].grad.values, Start(Prior(state, i), |params[i].data|))
    ensures Conditioned(sched[1..], Visit(sqrt, norm, clip, sched[0], params, state).state)
  {
    var i := sched[0].index;
    var g := params[i].grad.values;
    var h := sched[0].hyper;
    var s := Start(Prior(state, i), |params[i].data|);
    assert NonNegative(s.expAvgSq);
    SecondMomentNonNegative(s.expAvgSq, g, h.beta2);
    assert Fits([sched[0]], params, state);
    var p := Visit(sqrt, norm, clip, sched[0], params, state);
    assert p.state[i].expAvgSq == SecondMoment(s.expAvgSq, g, h.beta2);
  }

  /** The walk keeps every stored second moment non-negative. */
  lemma {:induction false} WalkKeepsNonNegative(
    sqrt: real -> real, norm: Vector -> real, clip: Bounds, sched: seq<Slot>,
    params: seq<Tensor>, state: map<nat, ParamState>)
    requires Fits(sched, params, state) && WalkDefined(sqrt, norm, clip, sched, params, state)
    requires Conditioned(sched, state)
    ensures MomentsNonNegative(Walk(sqrt, norm, clip, sched, params, state).state)
    decreases |sched|
  {
    if sched != [] {
      var i := sched[0].index;
      match params[i].grad
      case NoGrad =>
        WalkKeepsNonNegative(sqrt, norm, clip, sched[1..], params, state);
        assert Walk(sqrt, norm, clip, sched, params, state) == Walk(sqrt, norm, clip, sched[1..], params, state);
      case Sparse =>
      case Dense(g) =>
        assert Fits([sched[0]], params, state);
        var p := Visit(sqrt, norm, clip, sched[0], params, state);
        FitsAfterVisit(sqrt, norm, clip, sched, params, state);
        VisitKeepsConditioned(sqrt, norm, clip, sched, params, state);
        WalkKeepsNonNegative(sqrt, norm, clip, sched[1..], p.params, p.state);
        assert Walk(sqrt, norm, clip, sched, params, state) == Walk(sqrt, norm, clip, sched[1..], p.params, p.state);
    }
  }

  /** A step from non-negative second moments keeps them non-negative, so
      `ConditionedWalkDefined` applies again to the next step. */
  lemma StepKeepsConditioned(
    sqrt: real -> real, norm: Vector -> real, opt: Optimizer, params: seq<Tensor>, closureLoss: Option<real>)
    requires CanStep(sqrt, norm, opt, params) && Conditioned(Schedule(opt.groups), opt.state)
    ensures Conditioned(Schedule(opt.groups), Step(sqrt, norm, opt, params, closureLoss).opt.state)
  {
    var w := Walk(sqrt, norm, opt.scaleClip, Schedule(opt.groups), params, opt.state);
    WalkKeepsNonNegative(sqrt, norm, opt.scaleClip, Schedule(opt.groups), params, opt.state);
    assert Step(sqrt, norm, opt, params, closureLoss).opt.state == w.state;
  }

  // ---------------------------------------------------------------------
  // The walk over the schedule

  /** A parameter that no slot reaches with a dense gradient is left alone:
      same value, no state created, existing state unchanged. */
  lemma {:induction false} WalkLeavesUnvisited(
    sqrt: real -> real, norm: Vector -> real, clip: Bounds, sched: seq<Slot>,
    params: seq<Tensor>, state: map<nat, ParamState>, j: nat)
    requires Fits(sched, params, state) && WalkDefined(sqrt, norm, clip, sched, params, state)
    requires j < |params|
    requires !params[j].grad.Dense? || forall k :: 0 <= k < |sched| ==> sched[k].index != j
    ensures var r := Walk(sqrt, norm, clip, sched, params, state);
            && r.params[j] == params[j]
            && (j in r.state <==> j in state)
            && (j in state ==> r.state[j] == state[j])
    decreases |sched|
  {
    if sched != [] {
      var i := sched[0].index;
      match params[i].grad
      case NoGrad =>
        WalkLeavesUnvisited(sqrt, norm, clip, sched[1..], params, state, j);
      case Sparse =>
      case Dense(g) =>
        assert i != j;
        assert Fits([sched[0]], params, state);
        var p := Visit(sqrt, norm, clip, sched[0], params, state);
        FitsAfterVisit(sqrt, norm, clip, sched, params, state);
        assert p.params[j] == params[j];
        WalkLeavesUnvisited(sqrt, norm, clip, sched[1..], p.params, p.state, j);
    }
  }

  /** Some slot has a sparse gradient. */
  ghost predicate HasSparse(sched: seq<Slot>, params: seq<Tensor>)
    requires forall k :: 0 <= k < |sched| ==> sched[k].index < |params|
  {
    exists k :: 0 <= k < |sched| && params[sched[k].index].grad.Sparse?
  }

  /** The walk reports a sparse gradient exactly when the schedule reaches one. */
  lemma {:induction false} WalkSparseIff(
    sqrt: real -> real, norm: Vector -> real, clip: Bounds, sched: seq<Slot>,
    params: seq<Tensor>, state: map<nat, ParamState>)
    requires Fits(sched, params, state) && WalkDefined(sqrt, norm, clip, sched, params, state)
    ensures Walk(sqrt, norm, clip, sched, params, state).hitSparse <==> HasSparse(sched, params)
    decreases |sched|
  {
    if sched != [] {
      var i := sched[0].index;
      match params[i].grad
      case NoGrad =>
        WalkSparseIff(sqrt, norm, clip, sched[1..], params, state);
        SparseShift(sched, params, params);
      case Sparse =>
        assert params[sched[0].index].grad.Sparse?;
      case Dense(g) =>
        assert Fits([sched[0]], params, state);
        var p := Visit(sqrt, norm, clip, sched[0], params, state);
        FitsAfterVisit(sqrt, norm, clip, sched, params, state);
        WalkSparseIff(sqrt, norm, clip, sched[1..], p.params, p.state);
        SparseShift(sched, params, p.params);
    }
  }

  /** When the first slot is not sparse, the sparse slots are those of the
      rest, under any parameters with the same gradients. */
  lemma SparseShift(sched: seq<Slot>, params: seq<Tensor>, params': seq<Tensor>)
    requires sched != [] && |params'| == |params|
    requires forall k :: 0 <= k < |sched| ==> sched[k].index < |params|
    requires forall i :: 0 <= i < |params| ==> params'[i].grad == params[i].grad
    requires !params[sched[0].index].grad.Sparse?
    ensures HasSparse(sched, params) <==> HasSparse(sched[1..], params')
  {
    if HasSparse(sched, params) {
      var k :| 0 <= k < |sched| && params[sched[k].index].grad.Sparse?;
      assert sched[1..][k - 1] == sched[k];
    }
    if HasSparse(sched[1..], params') {
      var k :| 0 <= k < |sched| - 1 && params'[sched[1..][k].index].grad.Sparse?;
      assert sched[k + 1] == sched[1..][k];
    }
  }

  /** The walk skips a head slot without gradient. */
  lemma WalkSkips(
    sqrt: real -> real, norm: Vector -> real, clip: Bounds, sched: seq<Slot>,
    params: seq<Tensor>, state: map<nat, ParamState>)
    requires Fits(sched, params, state) && WalkDefined(sqrt, norm, clip, sched, params, state)
    requires sched != [] && params[sched[0].index].grad.NoGrad?
    ensures Fits(sched[1..], params, state) && WalkDefined(sqrt, norm, clip, sched[1..], params, state)
    ensures Walk(sqrt, norm, clip, sched, params, state) == Walk(sqrt, norm, clip, sched[1..], params, state)
  {
  }

  /** The walk visits a head slot with a dense gradient, then walks on. */
  lemma WalkVisits(
    sqrt: real -> real, norm: Vector -> real, clip: Bounds, sched: seq<Slot>,
    params: seq<Tensor>, state: map<nat, ParamState>)
    requires Fits(sched, params, state) && WalkDefined(sqrt, norm, clip, sched, params, state)
    requires sched != [] && params[sched[0].index].grad.Dense?
    ensures Fits([sched[0]], params, state)
    ensures var i := sched[0].index;
            Defined(sqrt, sched[0].hyper, params[i].grad.values, Start(Prior(state, i), |params[i].data|))
    ensures var p := Visit(sqrt, norm, clip, sched[0], params, state);
            && Fits(sched[1..], p.params, p.state)
            && WalkDefined(sqrt, norm, clip, sched[1..], p.params, p.state)
            && Walk(sqrt, norm, clip, sched, params, state) == Walk(sqrt, norm, clip, sched[1..], p.params, p.state)
  {
    assert Fits([sched[0]], params, state);
    FitsAfterVisit(sqrt, norm, clip, sched, params, state);
  }

  /** On the first sparse gradient the walk stops: the result is the walk
      over the slots before it, with the sparse flag set, so parameters
      already updated in this pass stay updated. */
  lemma {:induction false} WalkStopsAtFirstSparse(
    sqrt: real -> real, norm: Vector -> real, clip: Bounds, sched: seq<Slot>,
    params: seq<Tensor>, state: map<nat, ParamState>, k: nat)
    requires Fits(sched, params, state) && WalkDefined(sqrt, norm, clip, sched, params, state)
    requires k < |sched| && params[sched[k].index].grad.Sparse?
    requires forall j :: 0 <= j < k ==> !params[sched[j].index].grad.Sparse?
    ensures Fits(sched[..k], params, state) && WalkDefined(sqrt, norm, clip, sched[..k], params, state)
    ensures Walk(sqrt, norm, clip, sched, params, state)
            == Walk(sqrt, norm, clip, sched[..k], params, state).(hitSparse := true)
    decreases k, 1
  {
    if k > 0 {
      var pre := sched[..k];
      assert pre[0] == sched[0];
      assert pre[1..] == sched[1..][..k - 1];
      var i := sched[0].index;
      assert !params[i].grad.Sparse?;
      assert Fits(pre, params, state);
      if params[i].grad.NoGrad? {
        WalkSkips(sqrt, norm, clip, sched, params, state);
        assert sched[1..][k - 1] == sched[k];
        forall j | 0 <= j < k - 1 ensures !params[sched[1..][j].index].grad.Sparse? {
          assert sched[1..][j] == sched[j + 1];
        }
        WalkStopsAtFirstSparse(sqrt, norm, clip, sched[1..], params, state, k - 1);
        assert WalkDefined(sqrt, norm, clip, pre, params, state);
        WalkSkips(sqrt, norm, clip, pre, params, state);
      } else {
        StopsAfterVisit(sqrt, norm, clip, sched, params, state, k);
      }
    }
  }

  /** `WalkStopsAtFirstSparse` when the head slot is visited. */
  lemma {:induction false} StopsAfterVisit(
    sqrt: real -> real, norm: Vector -> real, clip: Bounds, sched: seq<Slot>,
    params: seq<Tensor>, state: map<nat, ParamState>, k: nat)
    requires Fits(sched, params, state) && WalkDefined(sqrt, norm, clip, sched, params, state)
    requires 0 < k < |sched| && params[sched[k].index].grad.Sparse?
    requires forall j :: 0 <= j < k ==> !params[sched[j].index].grad.Sparse?
    requires params[sched[0].index].grad.Dense?
    ensures Fits(sched[..k], params, state) && WalkDefined(sqrt, norm, clip, sched[..k], params, state)
    ensures Walk(sqrt, norm, clip, sched, params, state)
            == Walk(sqrt, norm, clip, sched[..k], params, state).(hitSparse := true)
    decreases k, 0
  {
    var pre := sched[..k];
    assert pre[0] == sched[0];
    assert pre[1..] == sched[1..][..k - 1];
    assert Fits(pre, params, state);
    WalkVisits(sqrt, norm, clip, sched, params, state);
    var p := Visit(sqrt, norm, clip, sched[0], params, state);
    FitsAfterVisit(sqrt, norm, clip, pre, params, state);
    assert sched[1..][k - 1] == sched[k];
    forall j | 0 <= j < k - 1 ensures !p.params[sched[1..][j].index].grad.Sparse? {
      assert sched[1..][j] == sched[j + 1];
    }
    WalkStopsAtFirstSparse(sqrt, norm, clip, sched[1..], p.params, p.state, k - 1);
    assert WalkDefined(sqrt, norm, clip, pre, params, state);
    WalkVisits(sqrt, norm, clip, pre, params, state);
  }

  /** No parameter index occurs in two slots. */
  ghost predicate Distinct(sched: seq<Slot>) {
    forall a, b :: 0 <= a < b < |sched| ==> sched[a].index != sched[b].index
  }

  /** Parameter `j`, holding `t` with prior state `prior` before the pass,
      ends the pass `r` exactly as one application of the update rule with
      hyperparameters `h` leaves it, its counter one higher. */
  ghost predicate AppliedOnce(
    sqrt: real -> real, norm: Vector -> real, clip: Bounds, h: Hyper, j: nat,
    t: Tensor, prior: Option<ParamState>, r: Pass)
  {
    && t.grad.Dense? && |t.grad.values| == |t.data|
    && (prior.Some? ==> Shaped(prior.value, |t.data|))
    && Defined(sqrt, h, t.grad.values, Start(prior, |t.data|))
    && var u := UpdateOne(sqrt, norm, h, clip, t.data, t.grad.values, prior);
       && j < |r.params| && r.params[j].data == u.data
       && j in r.state && r.state[j] == u.state
       && r.state[j].step == prior.GetOr(Start(None, 0)).step + 1
  }

  /** With distinct indices and no sparse gradient, a scheduled parameter
      with a dense gradient ends the pass exactly as one application of the
      update rule to its own value and state would leave it; in particular
      its counter goes up by one. */
  lemma {:induction false} WalkAppliesRuleOnce(
    sqrt: real -> real, norm: Vector -> real, clip: Bounds, sched: seq<Slot>,
    params: seq<Tensor>, state: map<nat, ParamState>, k: nat)
    requires Fits(sched, params, state) && WalkDefined(sqrt, norm, clip, sched, params, state)
    requires Distinct(sched) && !HasSparse(sched, params)
    requires k < |sched| && params[sched[k].index].grad.Dense?
    ensures AppliedOnce(sqrt, norm, clip, sched[k].hyper, sched[k].index, params[sched[k].index],
                        Prior(state, sched[k].index), Walk(sqrt, norm, clip, sched, params, state))
    decreases k, 1
  {
    var i := sched[0].index;
    assert !params[i].grad.Sparse?;
    if params[i].grad.NoGrad? {
      assert k > 0;
      assert Distinct(sched[1..]);
      WalkSkips(sqrt, norm, clip, sched, params, state);
      SparseShift(sched, params, params);
      assert sched[1..][k - 1] == sched[k];
      WalkAppliesRuleOnce(sqrt, norm, clip, sched[1..], params, state, k - 1);
    } else if k == 0 {
      AppliesAtHead(sqrt, norm, clip, sched, params, state);
    } else {
      AppliesAfterVisit(sqrt, norm, clip, sched, params, state, k);
    }
  }

  /** `WalkAppliesRuleOnce` for a later slot when the head slot is visited:
      the visit leaves that slot's parameter and state alone. */
  lemma {:induction false} AppliesAfterVisit(
    sqrt: real -> real, norm: Vector -> real, clip: Bounds, sched: seq<Slot>,
    params: seq<Tensor>, state: map<nat, ParamState>, k: nat)
    requires Fits(sched, params, state) && WalkDefined(sqrt, norm, clip, sched, params, state)
    requires Distinct(sched) && !HasSparse(sched, params)
    requires 0 < k < |sched| && params[sched[k].index].grad.Dense? && params[sched[0].index].grad.Dense?
    ensures AppliedOnce(sqrt, norm, clip, sched[k].hyper, sched[k].index, params[sched[k].index],
                        Prior(state, sched[k].index), Walk(sqrt, norm, clip, sched, params, state))
    decreases k, 0
  {
    var j := sched[k].index;
    assert sched[0].index != j;
    assert Distinct(sched[1..]);
    WalkVisits(sqrt, norm, clip, sched, params, state);
    var p := Visit(sqrt, norm, clip, sched[0], params, state);
    SparseShift(sched, params, p.params);
    assert p.params[j] == params[j];
    assert Prior(p.state, j) == Prior(state, j);
    assert sched[1..][k - 1] == sched[k];
    WalkAppliesRuleOnce(sqrt, norm, clip, sched[1..], p.params, p.state, k - 1);
  }

  /** The head slot's parameter is updated by its visit and not again. */
  lemma AppliesAtHead(
    sqrt: real -> real, norm: Vector -> real, clip: Bounds, sched: seq<Slot>,
    params: seq<Tensor>, state: map<nat, ParamState>)
    requires Fits(sched, params, state) && WalkDefined(sqrt, norm, clip, sched, params, state)
    requires Distinct(sched) && sched != [] && params[sched[0].index].grad.Dense?
    ensures AppliedOnce(sqrt, norm, clip, sched[0].hyper, sched[0].index, params[sched[0].index],
                        Prior(state, sched[0].index), Walk(sqrt, norm, clip, sched, params, state))
  {
    var j := sched[0].index;
    WalkVisits(sqrt, norm, clip, sched, params, state);
    var p := Visit(sqrt, norm, clip, sched[0], params, state);
    VisitApplies(sqrt, norm, clip, sched[0], params, state);
    forall b | 0 <= b < |sched[1..]| ensures sched[1..][b].index != j {
      assert sched[b + 1] == sched[1..][b];
    }
    WalkLeavesUnvisited(sqrt, norm, clip, sched[1..], p.params, p.state, j);
  }

  /** Visiting a slot applies the rule to its parameter and counts it. */
  lemma VisitApplies(
    sqrt: real -> real, norm: Vector -> real, clip: Bounds, slot: Slot,
    params: seq<Tensor>, state: map<nat, ParamState>)
    requires slot.index < |params| && params[slot.index].grad.Dense?
    requires Fits([slot], params, state)
    requires var i := slot.index;
             Defined(sqrt, slot.hyper, params[i].grad.values, Start(Prior(state, i), |params[i].data|))
    ensures var j := slot.index;
            var t := params[j];
            var u := UpdateOne(sqrt, norm, slot.hyper, clip, t.data, t.grad.values, Prior(state, j));
            var p := Visit(sqrt, norm, clip, slot, params, state);
            && p.params[j].data == u.data && j in p.state && p.state[j] == u.state
            && u.state.step == Prior(state, j).GetOr(Start(None, 0)).step + 1
  {
  }

  // ---------------------------------------------------------------------
  // The schedule and the step

  /** A slot of the schedule carries an index that some group lists. */
  lemma {:induction false} ScheduledIsListed(groups: seq<Group>, k: nat)
    requires k < |Schedule(groups)|
    ensures exists n :: 0 <= n < |groups| && Schedule(groups)[k].index in groups[n].params
    decreases |groups|
  {
    var head := Slots(groups[0]);
    var rest := Schedule(groups[1..]);
    assert Schedule(groups) == head + rest;
    if k < |head| {
      assert Schedule(groups)[k].index == groups[0].params[k];
    } else {
      assert Schedule(groups)[k] == rest[k - |head|];
      ScheduledIsListed(groups[1..], k - |head|);
      var n :| 0 <= n < |groups[1..]| && rest[k - |head|].index in groups[1..][n].params;
      assert groups[n + 1] == groups[1..][n];
    }
  }

  /** An index that a group lists is carried by some slot of the schedule. */
  lemma {:induction false} ListedIsScheduled(groups: seq<Group>, n: nat, j: nat)
    requires n < |groups| && j in groups[n].params
    ensures exists k :: 0 <= k < |Schedule(groups)| && Schedule(groups)[k].index == j
    decreases |groups|
  {
    var head := Slots(groups[0]);
    var rest := Schedule(groups[1..]);
    assert Schedule(groups) == head + rest;
    if n == 0 {
      var k :| 0 <= k < |groups[0].params| && groups[0].params[k] == j;
      assert Schedule(groups)[k] == head[k];
    } else {
      assert groups[1..][n - 1] == groups[n];
      ListedIsScheduled(groups[1..], n - 1, j);
      var k :| 0 <= k < |rest| && rest[k].index == j;
      assert Schedule(groups)[|head| + k] == rest[k];
    }
  }

  /** The schedule visits an index exactly when some group lists it. */
  lemma ScheduleCovers(groups: seq<Group>, j: nat)
    ensures (exists k :: 0 <= k < |Schedule(groups)| && Schedule(groups)[k].index == j)
            <==> (exists n :: 0 <= n < |groups| && j in groups[n].params)
  {
    if exists k :: 0 <= k < |Schedule(groups)| && Schedule(groups)[k].index == j {
      var k :| 0 <= k < |Schedule(groups)| && Schedule(groups)[k].index == j;
      ScheduledIsListed(groups, k);
    }
    if exists n :: 0 <= n < |groups| && j in groups[n].params {
      var n :| 0 <= n < |groups| && j in groups[n].params;
      ListedIsScheduled(groups, n, j);
    }
  }

  /** `step` raises the sparse-gradient error exactly when a scheduled
      parameter has a sparse gradient. */
  lemma StepSparseIff(
    sqrt: real -> real, norm: Vector -> real, opt: Optimizer, params: seq<Tensor>, closureLoss: Option<real>)
    requires CanStep(sqrt, norm, opt, params)
    ensures Step(sqrt, norm, opt, params, closureLoss).outcome.SparseGradientError?
            <==> HasSparse(Schedule(opt.groups), params)
  {
    WalkSparseIff(sqrt, norm, opt.scaleClip, Schedule(opt.groups), params, opt.state);
  }

  /** `step` leaves alone a parameter that has no gradient or that no group
      lists: same value, no state entry created, existing entry unchanged. */
  lemma StepLeavesUntouched(
    sqrt: real -> real, norm: Vector -> real, opt: Optimizer, params: seq<Tensor>,
    closureLoss: Option<real>, j: nat)
    requires CanStep(sqrt, norm, opt, params)
    requires j < |params|
    requires params[j].grad.NoGrad? || forall n :: 0 <= n < |opt.groups| ==> j !in opt.groups[n].params
    ensures var r := Step(sqrt, norm, opt, params, closureLoss);
            && r.params[j] == params[j]
            && (j in r.opt.state <==> j in opt.state)
            && (j in opt.state ==> r.opt.state[j] == opt.state[j])
  {
    var sched := Schedule(opt.groups);
    if !params[j].grad.NoGrad? {
      forall k | 0 <= k < |sched| ensures sched[k].index != j {
        ScheduledIsListed(opt.groups, k);
      }
    }
    WalkLeavesUnvisited(sqrt, norm, opt.scaleClip, sched, params, opt.state, j);
  }
}

=== FILE: modules.dfy ===
/** The part of a torch module tree that the trainer utilities read and
    write: each module's kind, its batch-norm flags, its training flag, its
    directly registered parameters and its children in registration order.
    A parameter is its identity (the index the optimizer uses), its dotted
    name as `named_parameters` reports it, and its `requires_grad` flag. */
module ModuleTree {
  import opened Outcomes

  datatype Param = Param(id: nat, name: string, trainable: bool)

  /** The module classes the utilities distinguish; `BatchNorm` stands for
      every subclass of torch's `_BatchNorm`.  `ChildList` stands for the
      containers whose length is their number of children (`Sequential`,
      `ModuleList`, `ModuleDict`), `ParamList` for those whose length is
      their number of parameters (`ParameterList`, `ParameterDict`). */
  datatype Kind = BatchNorm | LayerNorm | GroupNorm | ChildList(name: string) | ParamList(name: string) | Other(name: string)

  datatype Module = Module(
    kind: Kind,
    affine: bool,
    trackRunningStats: bool,
    training: bool,
    params: seq<Param>,
    children: seq<Module>)

  /** Python's truth value of a module object: a container is false when
      it is empty, and any other module, defining no length, is true. */
  predicate Truthy(m: Module) {
    match m.kind
    case ChildList(_) => m.children != []
    case ParamList(_) => m.params != []
    case _ => true
  }

  /** `parameters()`: the module's own parameters, then its children's, in
      pre-order. */
  function Params(m: Module): seq<Param>
    decreases m
  {
    m.params + ParamsAll(m.children)
  }

  function ParamsAll(ms: seq<Module>): seq<Param>
    decreases ms
  {
    if ms == [] then [] else Params(ms[0]) + ParamsAll(ms[1..])
  }

  /** The names of a parameter list, in order. */
  function Names(ps: seq<Param>): (r: seq<string>)
    ensures |r| == |ps| && forall i :: 0 <= i < |ps| ==> r[i] == ps[i].name
  {
    seq(|ps|, i requires 0 <= i < |ps| => ps[i].name)
  }

  /** The sub-module reached by following child indices from `m`. */
  function At(m: Module, path: seq<nat>): (r: Option<Module>)
    decreases |path|
  {
    if path == [] then Some(m)
    else if path[0] < |m.children| then At(m.children[path[0]], path[1..])
    else None
  }

  /** A module's own fields, without its children. */
  function Header(m: Module): Module {
    m.(children := [])
  }

  // ---------------------------------------------------------------------
  // train() and eval()

  /** `train(mode)`: the flag is set on the module and every descendant. */
  function SetTraining(m: Module, mode: bool): Module
    decreases m
  {
    m.(training := mode, children := SetTrainingAll(m.children, mode))
  }

  function SetTrainingAll(ms: seq<Module>, mode: bool): (r: seq<Module>)
    ensures |r| == |ms| && forall i :: 0 <= i < |ms| ==> r[i] == SetTraining(ms[i], mode)
    decreases ms
  {
    seq(|ms|, i requires 0 <= i < |ms| => SetTraining(ms[i], mode))
  }

  function Train(m: Module): Module { SetTraining(m, true) }

  function Eval(m: Module): Module { SetTraining(m, false) }

  /** Setting the training mode reaches every sub-module, changes nothing
      else, and keeps the tree's shape. */
  lemma {:induction false} SetTrainingAt(m: Module, mode: bool, path: seq<nat>)
    ensures At(SetTraining(m, mode), path).Some? <==> At(m, path).Some?
    ensures At(m, path).Some? ==>
              Header(At(SetTraining(m, mode), path).value) == Header(At(m, path).value).(training := mode)
    decreases |path|
  {
    if path != [] && path[0] < |m.children| {
      SetTrainingAt(m.children[path[0]], mode, path[1..]);
    }
  }

  /** Setting the training mode leaves the parameters as they are. */
  lemma {:induction false} SetTrainingParams(m: Module, mode: bool)
    ensures Params(SetTraining(m, mode)) == Params(m)
    decreases m
  {
    SetTrainingAllParams(m.children, mode);
  }

  lemma {:induction false} SetTrainingAllParams(ms: seq<Module>, mode: bool)
    ensures ParamsAll(SetTrainingAll(ms, mode)) == ParamsAll(ms)
    decreases ms
  {
    if ms != [] {
      SetTrainingParams(ms[0], mode);
      var r := SetTrainingAll(ms, mode);
      assert r[1..] == SetTrainingAll(ms[1..], mode);
      SetTrainingAllParams(ms[1..], mode);
    }
  }

  // ---------------------------------------------------------------------
  // Writing requires_grad flags in parameter order

  /** Gives the `i`-th parameter of `parameters()` the flag `flags[i]`. */
  function SetFlags(m: Module, flags: seq<bool>): (r: Module)
    requires |flags| == |Params(m)|
    ensures |Params(r)| == |Params(m)|
    ensures forall i :: 0 <= i < |Params(m)| ==> Params(r)[i] == Params(m)[i].(trainable := flags[i])
    ensures Header(r).(params := []) == Header(m).(params := [])
    ensures |r.children| == |m.children|
    decreases m
  {
    var n := |m.params|;
    var own := seq(n, i requires 0 <= i < n => m.params[i].(trainable := flags[i]));
    var kids := SetFlagsAll(m.children, flags[n..]);
    var r := m.(params := own, children := kids);
    assert Params(r) == own + ParamsAll(kids);
    r
  }

  function SetFlagsAll(ms: seq<Module>, flags: seq<bool>): (r: seq<Module>)
    requires |flags| == |ParamsAll(ms)|
    ensures |ParamsAll(r)| == |ParamsAll(ms)|
    ensures forall i :: 0 <= i < |ParamsAll(ms)| ==> ParamsAll(r)[i] == ParamsAll(ms)[i].(trainable := flags[i])
    ensures |r| == |ms|
    decreases ms
  {
    if ms == [] then []
    else
      var n := |Params(ms[0])|;
      var head := SetFlags(ms[0], flags[..n]);
      var tail := SetFlagsAll(ms[1..], flags[n..]);
      var r := [head] + tail;
      assert r[0] == head && r[1..] == tail;
      assert ParamsAll(r) == Params(head) + ParamsAll(tail);
      r
  }

  /** Reading the flags back gives the flags written. */
  lemma SetFlagsFlags(m: Module, flags: seq<bool>)
    requires |flags| == |Params(m)|
    ensures Flags(Params(SetFlags(m, flags))) == flags
  {
  }

  /** A constant flag for every parameter. */
  function Constant(n: nat, b: bool): (r: seq<bool>)
    ensures |r| == n && forall i :: 0 <= i < n ==> r[i] == b
  {
    seq(n, _ => b)
  }

  /** The flags currently held, in parameter order. */
  function Flags(ps: seq<Param>): (r: seq<bool>)
    ensures |r| == |ps| && forall i :: 0 <= i < |ps| ==> r[i] == ps[i].trainable
  {
    seq(|ps|, i requires 0 <= i < |ps| => ps[i].trainable)
  }
}

=== FILE: outcomes.dfy ===
/** Failure-carrying datatypes shared by the optimizer, freezing and trainer models. */
module Outcomes {

  /** A value that may be absent (Python's `None`). */
  datatype Option<+T> = None | Some(value: T) {

    /** The carried value, or `default` when absent. */
    function GetOr(default: T): T {
      match this
      case Some(v) => v
      case None => default
    }
  }

  /** The outcome of an operation that either returns a value or raises. */
  datatype Result<+R, +E> = Success(value: R) | Failure(error: E)
}

=== FILE: partition.dfy ===
/** `split_normalization_params` (holocron/trainer/utils.py): the pre-order
    walk that sorts a model's trainable parameters into those owned by
    normalization layers and all the others. */
module Partition {
  import opened Outcomes
  import opened ModuleTree

  /** An entry of the `norm_classes` argument: a module class (denoting the
      kind it and its subclasses have) or some other type. */
  datatype ClassArg = ModuleClass(kind: Kind) | NotAModule(name: string)

  datatype SplitError = NotAModuleClass(name: string)

  /** The classes used when none are given. */
  const DefaultNormClasses: seq<Kind> := [BatchNorm, LayerNorm, GroupNorm]

  /** Checks every entry in order; the first non-module class is reported. */
  function CheckClasses(args: seq<ClassArg>): (r: Result<seq<Kind>, SplitError>)
    ensures r.Failure? <==> exists i :: 0 <= i < |args| && args[i].NotAModule?
    ensures r.Failure? ==>
              exists i :: && 0 <= i < |args| && args[i].NotAModule?
                          && r.error == NotAModuleClass(args[i].name)
                          && forall j :: 0 <= j < i ==> args[j].ModuleClass?
    ensures r.Success? ==> |r.value| == |args| && forall i :: 0 <= i < |args| ==> r.value[i] == args[i].kind
  {
    if args == [] then Success([])
    else if args[0].NotAModule? then Failure(NotAModuleClass(args[0].name))
    else
      var rest := CheckClasses(args[1..]);
      assert forall i :: 1 <= i < |args| ==> args[i] == args[1..][i - 1];
      match rest
      case Failure(e) =>
        ghost var i :| && 0 <= i < |args[1..]| && args[1..][i].NotAModule?
                       && e == NotAModuleClass(args[1..][i].name)
                       && forall j :: 0 <= j < i ==> args[1..][j].ModuleClass?;
        assert args[i + 1] == args[1..][i];
        Failure(e)
      case Success(ks) => Success([args[0].kind] + ks)
  }

  /** The classes `norm_classes` stands for: the defaults when it is
      missing or empty; else, when every entry is a module class, their
      kinds in order, and otherwise the error for the first entry that is
      not. */
  function NormClasses(arg: Option<seq<ClassArg>>): (r: Result<seq<Kind>, SplitError>)
    ensures arg.None? || arg.value == [] ==> r == Success(DefaultNormClasses)
    ensures arg.Some? && arg.value != [] ==>
              var args := arg.value;
              && (r.Failure? <==> exists i :: 0 <= i < |args| && args[i].NotAModule?)
              && (r.Failure? ==>
                    exists i :: && 0 <= i < |args| && args[i].NotAModule?
                                && r.error == NotAModuleClass(args[i].name)
                                && forall j :: 0 <= j < i ==> args[j].ModuleClass?)
              && (r.Success? ==> |r.value| == |args| && forall i :: 0 <= i < |args| ==> r.value[i] == args[i].kind)
  {
    if arg.None? || arg.value == [] then Success(DefaultNormClasses) else CheckClasses(arg.value)
  }

  /** The trainable parameters, in order. */
  function Trainable(ps: seq<Param>): (r: seq<Param>)
    ensures forall p :: p in r <==> p in ps && p.trainable
  {
    if ps == [] then []
    else (if ps[0].trainable then [ps[0]] else []) + Trainable(ps[1..])
  }

  datatype Split = Split(norm: seq<Param>, other: seq<Param>)

  /** The walk over `modules()`: a module with a child gives its own
      trainable parameters to "other"; a childless module of a normalization
      class gives its trainable parameters to "norm"; any other childless
      module gives them to "other".  This is the walk with the test the
      source means, whether the module has a child; the test as written is
      that of `SplitModuleAsWritten`. */
  function SplitModule(m: Module, classes: seq<Kind>): (r: Split)
    ensures multiset(r.norm) + multiset(r.other) == multiset(Trainable(Params(m)))
    decreases m
  {
    var own :=
      if m.children != [] then Split([], Trainable(m.params))
      else if m.kind in classes then Split(Trainable(Params(m)), [])
      else Split([], Trainable(Params(m)));
    var rest := SplitAll(m.children, classes);
    TrainableConcat(m.params, ParamsAll(m.children));
    Split(own.norm + rest.norm, own.other + rest.other)
  }

  /** The walk over a sequence of sibling subtrees, in order. */
  function SplitAll(ms: seq<Module>, classes: seq<Kind>): (r: Split)
    ensures multiset(r.norm) + multiset(r.other) == multiset(Trainable(ParamsAll(ms)))
    decreases ms
  {
    if ms == [] then Split([], [])
    else
      var head := SplitModule(ms[0], classes);
      var tail := SplitAll(ms[1..], classes);
      TrainableConcat(Params(ms[0]), ParamsAll(ms[1..]));
      Split(head.norm + tail.norm, head.other + tail.other)
  }

  lemma {:induction false} TrainableConcat(a: seq<Param>, b: seq<Param>)
    ensures Trainable(a + b) == Trainable(a) + Trainable(b)
    decreases |a|
  {
    if a == [] {
      assert a + b == b;
    } else {
      assert (a + b)[1..] == a[1..] + b;
      TrainableConcat(a[1..], b);
    }
  }

  /** `split_normalization_params(model, norm_classes)`: raises exactly
      when the class check does; otherwise "norm" holds the trainable
      parameters registered by childless modules of a normalization class
      and "other" the remaining trainable ones, both in `parameters()`
      order, so that together they are the trainable parameters, none of
      them in both outputs when identities are distinct. */
  function SplitNormalizationParams(m: Module, arg: Option<seq<ClassArg>>): (r: Result<Split, SplitError>)
    ensures r.Failure? <==> NormClasses(arg).Failure?
    ensures r.Success? ==>
              var classes := NormClasses(arg).value;
              && r.value.norm == Select(Params(m), Tags(m, classes), true)
              && r.value.other == Select(Params(m), Tags(m, classes), false)
              && multiset(r.value.norm) + multiset(r.value.other) == multiset(Trainable(Params(m)))
              && (DistinctIds(Params(m)) ==> forall p :: p in r.value.norm ==> p !in r.value.other)
  {
    match NormClasses(arg)
    case Failure(e) => Failure(e)
    case Success(classes) =>
      SplitIsSelection(m, classes);
      if DistinctIds(Params(m)) then
        SplitPartitions(m, classes);
        Success(SplitModule(m, classes))
      else Success(SplitModule(m, classes))
  }

  // ---------------------------------------------------------------------
  // The reference: one tag per parameter

  /** For each parameter of `parameters()`, whether the module that
      registers it is a childless module of a normalization class. */
  function Tags(m: Module, classes: seq<Kind>): (t: seq<bool>)
    ensures |t| == |Params(m)|
    decreases m
  {
    Constant(|m.params|, m.children == [] && m.kind in classes) + TagsAll(m.children, classes)
  }

  function TagsAll(ms: seq<Module>, classes: seq<Kind>): (t: seq<bool>)
    ensures |t| == |ParamsAll(ms)|
    decreases ms
  {
    if ms == [] then [] else Tags(ms[0], classes) + TagsAll(ms[1..], classes)
  }

  /** The trainable parameters whose tag is `want`, in order. */
  function Select(ps: seq<Param>, tags: seq<bool>, want: bool): seq<Param>
    requires |tags| == |ps|
  {
    if ps == [] then []
    else (if ps[0].trainable && tags[0] == want then [ps[0]] else []) + Select(ps[1..], tags[1..], want)
  }

  lemma {:induction false} SelectConcat(a: seq<Param>, ta: seq<bool>, b: seq<Param>, tb: seq<bool>, want: bool)
    requires |ta| == |a| && |tb| == |b|
    ensures Select(a + b, ta + tb, want) == Select(a, ta, want) + Select(b, tb, want)
    decreases |a|
  {
    if a != [] {
      assert (a + b)[1..] == a[1..] + b;
      assert (ta + tb)[1..] == ta[1..] + tb;
      SelectConcat(a[1..], ta[1..], b, tb, want);
    } else {
      assert a + b == b && ta + tb == tb;
    }
  }

  lemma {:induction false} SelectConstant(ps: seq<Param>, x: bool, want: bool)
    ensures Select(ps, Constant(|ps|, x), want) == if x == want then Trainable(ps) else []
    decreases |ps|
  {
    if ps != [] {
      assert Constant(|ps|, x)[1..] == Constant(|ps| - 1, x);
      SelectConstant(ps[1..], x, want);
    }
  }

  /** The walk equals the flat selection by tag over `parameters()`: the
      "norm" list is the trainable parameters tagged true, the "other" list
      those tagged false, each in pre-order. */
  lemma {:induction false} SplitIsSelection(m: Module, classes: seq<Kind>)
    ensures SplitModule(m, classes).norm == Select(Params(m), Tags(m, classes), true)
    ensures SplitModule(m, classes).other == Select(Params(m), Tags(m, classes), false)
    decreases m
  {
    var x := m.children == [] && m.kind in classes;
    var ownTags := Constant(|m.params|, x);
    SplitAllIsSelection(m.children, classes);
    SelectConcat(m.params, ownTags, ParamsAll(m.children), TagsAll(m.children, classes), true);
    SelectConcat(m.params, ownTags, ParamsAll(m.children), TagsAll(m.children, classes), false);
    SelectConstant(m.params, x, true);
    SelectConstant(m.params, x, false);
    if m.children == [] {
      assert Params(m) == m.params;
    }
  }

  lemma {:induction false} SplitAllIsSelection(ms: seq<Module>, classes: seq<Kind>)
    ensures SplitAll(ms, classes).norm == Select(ParamsAll(ms), TagsAll(ms, classes), true)
    ensures SplitAll(ms, classes).other == Select(ParamsAll(ms), TagsAll(ms, classes), false)
    decreases ms
  {
    if ms != [] {
      SplitIsSelection(ms[0], classes);
      SplitAllIsSelection(ms[1..], classes);
      var a, ta := Params(ms[0]), Tags(ms[0], classes);
      var b, tb := ParamsAll(ms[1..]), TagsAll(ms[1..], classes);
      SelectConcat(a, ta, b, tb, true);
      SelectConcat(a, ta, b, tb, false);
    }
  }

  /** The two selections together hold every trainable parameter once. */
  lemma {:induction false} SelectMembers(ps: seq<Param>, tags: seq<bool>, want: bool, p: Param)
    requires |tags| == |ps|
    ensures p in Select(ps, tags, want) <==>
              exists i :: 0 <= i < |ps| && ps[i] == p && p.trainable && tags[i] == want
    decreases |ps|
  {
    if ps != [] {
      SelectMembers(ps[1..], tags[1..], want, p);
      if exists i :: 0 <= i < |ps| - 1 && ps[1..][i] == p && p.trainable && tags[1..][i] == want {
        var i :| 0 <= i < |ps| - 1 && ps[1..][i] == p && p.trainable && tags[1..][i] == want;
        assert ps[i + 1] == p && tags[i + 1] == want;
      }
      if exists i :: 0 <= i < |ps| && ps[i] == p && p.trainable && tags[i] == want {
        var i :| 0 <= i < |ps| && ps[i] == p && p.trainable && tags[i] == want;
        if i > 0 {
          assert ps[1..][i - 1] == p && tags[1..][i - 1] == want;
        }
      }
    }
  }

  /** No two parameters of the model share an identity. */
  predicate DistinctIds(ps: seq<Param>) {
    forall i, j :: 0 <= i < j < |ps| ==> ps[i].id != ps[j].id
  }

  /** With distinct parameter identities no parameter is in both outputs. */
  lemma SplitPartitions(m: Module, classes: seq<Kind>)
    requires DistinctIds(Params(m))
    ensures var s := SplitModule(m, classes);
            forall p :: p in s.norm ==> p !in s.other
  {
    SplitIsSelection(m, classes);
    var ps, tags := Params(m), Tags(m, classes);
    var s := SplitModule(m, classes);
    forall p | p in s.norm ensures p !in s.other {
      SelectMembers(ps, tags, true, p);
      SelectMembers(ps, tags, false, p);
    }
  }

  /** No parameter of `a` has the identity of a parameter of `b`. */
  predicate IdsApart(a: seq<Param>, b: seq<Param>) {
    forall i, j :: 0 <= i < |a| && 0 <= j < |b| ==> a[i].id != b[j].id
  }

  /** With distinct identities every parameter of "norm" has an identity
      no parameter of "other" has. */
  lemma SplitIdsApart(m: Module, classes: seq<Kind>)
    requires DistinctIds(Params(m))
    ensures var s := SplitModule(m, classes);
            IdsApart(s.norm, s.other)
  {
    var ps, tags := Params(m), Tags(m, classes);
    var s := SplitModule(m, classes);
    SplitIsSelection(m, classes);
    SplitPartitions(m, classes);
    forall i, j | 0 <= i < |s.norm| && 0 <= j < |s.other| ensures s.norm[i].id != s.other[j].id {
      var p, q := s.norm[i], s.other[j];
      SelectMembers(ps, tags, true, p);
      SelectMembers(ps, tags, false, q);
      assert p != q;
      DistinctIdsApart(ps, p, q);
    }
  }

  /** Two different parameters of a list with distinct identities have
      different identities. */
  lemma DistinctIdsApart(ps: seq<Param>, p: Param, q: Param)
    requires DistinctIds(ps) && p in ps && q in ps && p != q
    ensures p.id != q.id
  {
    var k :| 0 <= k < |ps| && ps[k] == p;
    var l :| 0 <= l < |ps| && ps[l] == q;
    assert k != l;
  }

  /** A module with a child sends its own trainable parameters to "other",
      ahead of its descendants', even when it is of a normalization class. */
  lemma OwnParamsPlacement(m: Module, classes: seq<Kind>)
    requires m.children != []
    ensures var s := SplitModule(m, classes);
            s.other[..|Trainable(m.params)|] == Trainable(m.params)
  {
  }

  /** A childless module sends its trainable parameters to "norm" exactly
      when its class is listed, and to "other" otherwise. */
  lemma LeafPlacement(m: Module, classes: seq<Kind>)
    requires m.children == []
    ensures var s := SplitModule(m, classes);
            && (m.kind in classes ==> s.norm == Trainable(m.params) && s.other == [])
            && (m.kind !in classes ==> s.norm == [] && s.other == Trainable(m.params))
  {
    var x := m.kind in classes;
    SplitIsSelection(m, classes);
    assert Params(m) == m.params && Tags(m, classes) == Constant(|m.params|, x);
    SelectConstant(m.params, x, false);
    SelectConstant(m.params, x, true);
  }

  // ---------------------------------------------------------------------
  // The loop's test as written: the first child's truth value

  /** The test at the head of the loop as the source writes it: the first
      child, or nothing, taken as a truth value.  It is false for a
      childless module and also when the first child is an empty container. */
  predicate FirstChildTruthy(m: Module) {
    m.children != [] && Truthy(m.children[0])
  }

  /** The walk with the test as written: a module whose first child is an
      empty container is treated like a childless one, so it hands on its
      descendants' parameters too, and the walk then visits those again.
      Every trainable parameter still lands somewhere, possibly more than
      once. */
  function SplitModuleAsWritten(m: Module, classes: seq<Kind>): Split
    decreases m
  {
    var own :=
      if FirstChildTruthy(m) then Split([], Trainable(m.params))
      else if m.kind in classes then Split(Trainable(Params(m)), [])
      else Split([], Trainable(Params(m)));
    var rest := SplitAllAsWritten(m.children, classes);
    Split(own.norm + rest.norm, own.other + rest.other)
  }

  function SplitAllAsWritten(ms: seq<Module>, classes: seq<Kind>): Split
    decreases ms
  {
    if ms == [] then Split([], [])
    else
      var head := SplitModuleAsWritten(ms[0], classes);
      var tail := SplitAllAsWritten(ms[1..], classes);
      Split(head.norm + tail.norm, head.other + tail.other)
  }

  /** No module of the tree has an empty container as its first child. */
  predicate NoFalsyFirstChild(m: Module)
    decreases m
  {
    && (m.children != [] ==> Truthy(m.children[0]))
    && forall i :: 0 <= i < |m.children| ==> NoFalsyFirstChild(m.children[i])
  }

  /** Where no first child is an empty container, the test as written and
      the intended one agree, and so do the two walks. */
  lemma {:induction false} AsWrittenAgrees(m: Module, classes: seq<Kind>)
    requires NoFalsyFirstChild(m)
    ensures SplitModuleAsWritten(m, classes) == SplitModule(m, classes)
    decreases m
  {
    AsWrittenAgreesAll(m.children, classes);
  }

  lemma {:induction false} AsWrittenAgreesAll(ms: seq<Module>, classes: seq<Kind>)
    requires forall i :: 0 <= i < |ms| ==> NoFalsyFirstChild(ms[i])
    ensures SplitAllAsWritten(ms, classes) == SplitAll(ms, classes)
    decreases ms
  {
    if ms != [] {
      var tl := ms[1..];
      assert forall i :: 0 <= i < |tl| ==> tl[i] == ms[i + 1];
      AsWrittenAgrees(ms[0], classes);
      AsWrittenAgreesAll(tl, classes);
    }
  }

  /** As written, a module whose first child is an empty container hands on
      all its trainable parameters, its descendants' included, ahead of
      what the walk over those descendants adds again. */
  lemma AsWrittenFalsyFirstChild(m: Module, classes: seq<Kind>)
    requires m.children != [] && !Truthy(m.children[0])
    ensures var all := Trainable(Params(m));
            var rest := SplitAllAsWritten(m.children, classes);
            SplitModuleAsWritten(m, classes)
              == if m.kind in classes then Split(all + rest.norm, rest.other) else Split(rest.norm, all + rest.other)
  {
    assert !FirstChildTruthy(m);
  }

  /** A childless module: the walk as written hands its trainable
      parameters to the output its class selects. */
  lemma LeafWalks(leaf: Module, classes: seq<Kind>)
    requires leaf.children == []
    ensures var t := Trainable(leaf.params);
            SplitModuleAsWritten(leaf, classes) == if leaf.kind in classes then Split(t, []) else Split([], t)
  {
    assert Params(leaf) == leaf.params;
    assert !FirstChildTruthy(leaf);
  }

  /** The walk as written over two siblings joins the walks over each. */
  lemma SiblingWalksAsWritten(x: Module, y: Module, classes: seq<Kind>)
    ensures var a, b := SplitModuleAsWritten(x, classes), SplitModuleAsWritten(y, classes);
            SplitAllAsWritten([x, y], classes) == Split(a.norm + b.norm, a.other + b.other)
  {
    assert [x, y][1..] == [y];
    assert [y][1..] == [];
    var b := SplitModuleAsWritten(y, classes);
    assert SplitAllAsWritten([y], classes) == Split(b.norm + [], b.other + []);
  }

  /** A parent with no parameters of its own, an empty container as its
      first child and a childless module as its second: as written, the
      parent hands on the leaf's trainable parameters itself, to "other"
      unless the parent's class is listed, and the leaf hands them on
      again. */
  lemma {:induction false} AsWrittenAfterEmpty(m: Module, classes: seq<Kind>)
    requires m.params == [] && |m.children| == 2 && m.kind !in classes
    requires m.children[0].kind.ChildList? && m.children[0].children == [] && m.children[0].params == []
    requires m.children[1].children == []
    ensures var leaf := m.children[1];
            var t := Trainable(leaf.params);
            && Trainable(Params(m)) == t
            && SplitModuleAsWritten(m, classes) == if leaf.kind in classes then Split(t, t) else Split([], t + t)
  {
    var empty, leaf := m.children[0], m.children[1];
    var t := Trainable(leaf.params);
    EmptyPair(empty, leaf);
    assert m.children == [empty, leaf];
    assert Params(m) == leaf.params by {
      assert Params(m) == [] + ParamsAll([empty, leaf]);
    }
    assert !Truthy(empty);
    AsWrittenFalsyFirstChild(m, classes);
    LeafWalks(empty, classes);
    LeafWalks(leaf, classes);
    SiblingWalksAsWritten(empty, leaf, classes);
    if leaf.kind in classes {
      assert SplitAllAsWritten(m.children, classes) == Split([] + t, [] + []);
    } else {
      assert SplitAllAsWritten(m.children, classes) == Split([] + [], [] + t);
    }
  }

  /** A linear layer after an empty `Sequential`: as written, its weight
      and bias are in "other" twice, where `SplitModule` ensures that the
      outputs are the trainable parameters counted once. */
  lemma AsWrittenDuplicates(w: Param, b: Param)
    requires w.trainable && b.trainable
    ensures var linear := Module(Other("Linear"), false, false, true, [w, b], []);
            var empty := Module(ChildList("Sequential"), false, false, true, [], []);
            var m := Module(ChildList("Sequential"), false, false, true, [], [empty, linear]);
            && Trainable(Params(m)) == [w, b]
            && SplitModuleAsWritten(m, DefaultNormClasses) == Split([], [w, b, w, b])
  {
    var linear := Module(Other("Linear"), false, false, true, [w, b], []);
    var empty := Module(ChildList("Sequential"), false, false, true, [], []);
    var m := Module(ChildList("Sequential"), false, false, true, [], [empty, linear]);
    assert linear.kind !in DefaultNormClasses;
    AsWrittenAfterEmpty(m, DefaultNormClasses);
    TrainablePair(w, b);
    assert Trainable(linear.params) == [w, b];
    assert [w, b] + [w, b] == [w, b, w, b];
  }

  /** A batch norm after an empty `ModuleList`: as written, its weight and
      bias are in both outputs though their identities are distinct, where
      `SplitPartitions` keeps the two outputs apart. */
  lemma AsWrittenSharesNormParams(w: Param, b: Param)
    requires w.trainable && b.trainable && w.id != b.id
    ensures var norm := Module(BatchNorm, true, true, true, [w, b], []);
            var empty := Module(ChildList("ModuleList"), false, false, true, [], []);
            var m := Module(ChildList("Sequential"), false, false, true, [], [empty, norm]);
            && DistinctIds(Params(m))
            && SplitModuleAsWritten(m, DefaultNormClasses) == Split([w, b], [w, b])
  {
    var norm := Module(BatchNorm, true, true, true, [w, b], []);
    var empty := Module(ChildList("ModuleList"), false, false, true, [], []);
    var m := Module(ChildList("Sequential"), false, false, true, [], [empty, norm]);
    assert norm.kind in DefaultNormClasses;
    AsWrittenAfterEmpty(m, DefaultNormClasses);
    TrainablePair(w, b);
    assert Trainable(norm.params) == [w, b];
    assert Params(m) == [w, b] by {
      EmptyPair(empty, norm);
      assert Params(m) == [] + ParamsAll([empty, norm]);
    }
    assert DistinctIds([w, b]);
  }

  lemma TrainablePair(w: Param, b: Param)
    requires w.trainable && b.trainable
    ensures Trainable([w, b]) == [w, b]
  {
    assert [w, b][1..] == [b];
    assert Trainable([b]) == [b];
  }

  /** A parent of a childless, parameterless module and a leaf: the
      parameters are the leaf's. */
  lemma EmptyPair(empty: Module, leaf: Module)
    requires empty.params == [] && empty.children == [] && leaf.children == []
    ensures Params(empty) == [] && Params(leaf) == leaf.params
    ensures ParamsAll([leaf]) == leaf.params && ParamsAll([empty, leaf]) == leaf.params
  {
    assert [empty, leaf][1..] == [leaf];
    assert [leaf][1..] == [];
  }
}

=== FILE: trainer.dfy ===
/** The bookkeeping of the trainer (holocron/trainer/core.py): the gradient
    accumulation counter of `_backprop_step`, the NaN tolerance and the
    step/epoch counters of `_fit_epoch`, the parameter groups built by
    `_set_params` and `_reset_opt`, and the recorders of `find_lr`.

    The forward pass, the loss, backward, clipping, the gradient scaler and
    the schedulers are torch machinery: the loop sees a batch's loss only as
    finite (with its value) or not, and the calls it makes are recorded as
    events in order. */
module TrainerCore {
  import opened Outcomes
  import opened ModuleTree
  import opened Freezing
  import opened Partition
  import Lamb

  /** A batch's loss as the loop inspects it. */
  datatype Loss = Finite(value: real) | NonFinite

  /** The `gradient_clip` argument: only a Python float enables clipping. */
  datatype ClipArg = NoClip | FloatClip(maxNorm: real) | NonFloatClip

  /** The constructor arguments the loops read. */
  datatype Config = Config(amp: bool, skipNanLoss: bool, nanTolerance: int, gradientAcc: int, gradClip: ClipArg)

  /** The calls the loops make into torch. */
  datatype Event = Backward | Unscale | ClipGrad(maxNorm: real) | OptimizerStep | ScalerUpdate | ZeroGrad | SchedulerStep

  datatype TrainError =
    | AllFrozen
    | TooManyNonFinite
    | NumItTooLarge
    | ZeroDivision
    | NonFiniteFirstLoss
    | FreezeFailed(cause: FreezeError)
    | NonPositiveNumIt

  /** The trainer's state. */
  datatype Trainer = Trainer(
    cfg: Config,
    model: Module,
    opt: Lamb.Optimizer,
    gradCount: int,
    step: int,
    epoch: int,
    lrRecorder: seq<real>,
    lossRecorder: seq<real>,
    events: seq<Event>)

  /** A trainer after an operation, and whether the operation raised. */
  datatype Run = Run(trainer: Trainer, outcome: Result<(), TrainError>)

  // ---------------------------------------------------------------------
  // _backprop_step

  datatype Backprop = Backprop(count: int, events: seq<Event>)

  /** The clipping calls made before an optimizer step. */
  function Clipping(cfg: Config): seq<Event> {
    if cfg.gradClip.FloatClip? then (if cfg.amp then [Unscale] else []) + [ClipGrad(cfg.gradClip.maxNorm)] else []
  }

  /** The optimizer step, through the scaler under mixed precision. */
  function Stepping(cfg: Config): seq<Event> {
    if cfg.amp then [OptimizerStep, ScalerUpdate] else [OptimizerStep]
  }

  /** The calls of a call to `_backprop_step` that reaches the
      accumulation target. */
  function StepCalls(cfg: Config): seq<Event> {
    [Backward] + Clipping(cfg) + Stepping(cfg) + [ZeroGrad]
  }

  /** One call of `_backprop_step` with the accumulation counter at `count`:
      it always calls backward once, first; it steps the optimizer and then
      clears the gradients exactly when the counter reaches `gradient_acc`;
      such a call clips, with the configured max norm and before the step,
      exactly when the clip value is a float, and goes through the scaler
      exactly under mixed precision. Any other call only calls backward. */
  function BackpropStep(cfg: Config, count: int): (r: Backprop)
    ensures r.count == (if count + 1 == cfg.gradientAcc then 0 else count + 1)
    ensures r.events != [] && r.events[0] == Backward
    ensures Count(r.events, Backward) == 1 && Count(r.events, SchedulerStep) == 0
    ensures Count(r.events, OptimizerStep) == (if count + 1 == cfg.gradientAcc then 1 else 0)
    ensures Count(r.events, ZeroGrad) == (if count + 1 == cfg.gradientAcc then 1 else 0)
    ensures forall i :: 0 <= i < |r.events| && r.events[i].ClipGrad? ==>
              count + 1 == cfg.gradientAcc && cfg.gradClip.FloatClip?
    ensures count + 1 == cfg.gradientAcc && cfg.gradClip.FloatClip? ==>
              ClipGrad(cfg.gradClip.maxNorm) in r.events
    ensures forall i, j :: 0 <= i < j < |r.events| && r.events[j].ClipGrad? ==> r.events[i] != OptimizerStep
    ensures forall i :: 0 <= i < |r.events| && r.events[i] == ZeroGrad ==> i == |r.events| - 1
    ensures Unscale in r.events <==> count + 1 == cfg.gradientAcc && cfg.amp && cfg.gradClip.FloatClip?
    ensures ScalerUpdate in r.events <==> count + 1 == cfg.gradientAcc && cfg.amp
    ensures count + 1 == cfg.gradientAcc ==> r.events == StepCalls(cfg)
    ensures count + 1 != cfg.gradientAcc ==> r.events == [Backward]
  {
    var c := count + 1;
    if c == cfg.gradientAcc then
      StepCallsCount(cfg, Backward);
      StepCallsCount(cfg, OptimizerStep);
      StepCallsCount(cfg, ZeroGrad);
      StepCallsCount(cfg, SchedulerStep);
      StepCallsOrder(cfg);
      Backprop(0, StepCalls(cfg))
    else
      CountSingle(Backward, Backward);
      CountSingle(Backward, OptimizerStep);
      CountSingle(Backward, ZeroGrad);
      CountSingle(Backward, SchedulerStep);
      Backprop(c, [Backward])
  }

  /** A stepping call calls backward, the optimizer step and `zero_grad`
      once each and never the scheduler. */
  lemma StepCallsCount(cfg: Config, x: Event)
    requires x == Backward || x == OptimizerStep || x == ZeroGrad || x == SchedulerStep
    ensures Count(StepCalls(cfg), x) == (if x == SchedulerStep then 0 else 1)
  {
    var c, p := Clipping(cfg), Stepping(cfg);
    assert StepCalls(cfg) == [Backward] + (c + (p + [ZeroGrad]));
    CountConcat([Backward], c + (p + [ZeroGrad]), x);
    CountConcat(c, p + [ZeroGrad], x);
    CountConcat(p, [ZeroGrad], x);
    CountSingle(Backward, x);
    CountSingle(ZeroGrad, x);
    ClippingCount(cfg, x);
    SteppingCount(cfg, x);
  }

  /** Clipping calls none of backward, the optimizer step, `zero_grad` or
      the scheduler. */
  lemma ClippingCount(cfg: Config, x: Event)
    requires x == Backward || x == OptimizerStep || x == ZeroGrad || x == SchedulerStep
    ensures Count(Clipping(cfg), x) == 0
  {
    if cfg.gradClip.FloatClip? {
      var g := ClipGrad(cfg.gradClip.maxNorm);
      CountSingle(g, x);
      if cfg.amp {
        CountConcat([Unscale], [g], x);
        CountSingle(Unscale, x);
      }
    }
  }

  /** Stepping calls the optimizer step once, and none of the other three. */
  lemma SteppingCount(cfg: Config, x: Event)
    requires x == Backward || x == OptimizerStep || x == ZeroGrad || x == SchedulerStep
    ensures Count(Stepping(cfg), x) == (if x == OptimizerStep then 1 else 0)
  {
    CountSingle(OptimizerStep, x);
    if cfg.amp {
      CountConcat([OptimizerStep], [ScalerUpdate], x);
      CountSingle(ScalerUpdate, x);
    }
  }

  /** A stepping call starts with backward and ends with `zero_grad`; it
      clips exactly when a float clip value is set, and only before the
      optimizer step; under mixed precision the unscale call comes directly
      before the clip, and the scaler update follows the step. */
  lemma StepCallsOrder(cfg: Config)
    ensures StepCalls(cfg)[0] == Backward && StepCalls(cfg)[|StepCalls(cfg)| - 1] == ZeroGrad
    ensures forall i :: 0 <= i < |StepCalls(cfg)| - 1 ==> StepCalls(cfg)[i] != ZeroGrad
    ensures Unscale in StepCalls(cfg) <==> cfg.amp && cfg.gradClip.FloatClip?
    ensures ScalerUpdate in StepCalls(cfg) <==> cfg.amp
    ensures cfg.amp && cfg.gradClip.FloatClip? ==>
              StepCalls(cfg)[1] == Unscale && StepCalls(cfg)[2] == ClipGrad(cfg.gradClip.maxNorm)
    ensures cfg.amp ==>
              StepCalls(cfg)[|StepCalls(cfg)| - 3] == OptimizerStep && StepCalls(cfg)[|StepCalls(cfg)| - 2] == ScalerUpdate
    ensures cfg.gradClip.FloatClip? ==> ClipGrad(cfg.gradClip.maxNorm) in StepCalls(cfg)
    ensures forall i :: 0 <= i < |StepCalls(cfg)| && StepCalls(cfg)[i].ClipGrad? ==> cfg.gradClip.FloatClip?
    ensures forall i, j :: 0 <= i < j < |StepCalls(cfg)| && StepCalls(cfg)[j].ClipGrad? ==> StepCalls(cfg)[i] != OptimizerStep
  {
    var s := StepCalls(cfg);
    if cfg.amp && cfg.gradClip.FloatClip? {
      assert s == [Backward, Unscale, ClipGrad(cfg.gradClip.maxNorm), OptimizerStep, ScalerUpdate, ZeroGrad];
    } else if cfg.amp {
      assert s == [Backward, OptimizerStep, ScalerUpdate, ZeroGrad];
    } else if cfg.gradClip.FloatClip? {
      assert s == [Backward, ClipGrad(cfg.gradClip.maxNorm), OptimizerStep, ZeroGrad];
    } else {
      assert s == [Backward, OptimizerStep, ZeroGrad];
    }
  }

  function Count(es: seq<Event>, x: Event): nat {
    if es == [] then 0 else (if es[0] == x then 1 else 0) + Count(es[1..], x)
  }

  lemma {:induction false} CountIn(es: seq<Event>, x: Event)
    ensures x in es <==> Count(es, x) > 0
  {
    if es != [] {
      CountIn(es[1..], x);
      assert x in es <==> x == es[0] || x in es[1..];
    }
  }

  lemma {:induction false} CountConcat(a: seq<Event>, b: seq<Event>, x: Event)
    ensures Count(a + b, x) == Count(a, x) + Count(b, x)
  {
    if a == [] {
      assert a + b == b;
    } else {
      assert (a + b)[1..] == a[1..] + b;
      CountConcat(a[1..], b, x);
    }
  }

  lemma CountSingle(y: Event, x: Event)
    ensures Count([y], x) == (if y == x then 1 else 0)
  {
    assert [y][1..] == [];
  }

  /** `n` consecutive calls from counter `count`. */
  function Backprops(cfg: Config, count: int, n: nat): (r: Backprop)
    decreases n
  {
    if n == 0 then Backprop(count, [])
    else
      var b := BackpropStep(cfg, count);
      var rest := Backprops(cfg, b.count, n - 1);
      Backprop(rest.count, b.events + rest.events)
  }

  /** Whatever the counter and the target, `n` calls call backward `n`
      times and follow every optimizer step by one `zero_grad`. */
  lemma {:induction false} BackpropsCalls(cfg: Config, count: int, n: nat)
    ensures var r := Backprops(cfg, count, n);
            && Count(r.events, Backward) == n
            && Count(r.events, ZeroGrad) == Count(r.events, OptimizerStep)
            && Count(r.events, SchedulerStep) == 0
    decreases n
  {
    if n > 0 {
      var b := BackpropStep(cfg, count);
      var rest := Backprops(cfg, b.count, n - 1);
      var r := Backprops(cfg, count, n);
      assert r.events == b.events + rest.events;
      BackpropsCalls(cfg, b.count, n - 1);
      CountConcat(b.events, rest.events, Backward);
      CountConcat(b.events, rest.events, ZeroGrad);
      CountConcat(b.events, rest.events, OptimizerStep);
      CountConcat(b.events, rest.events, SchedulerStep);
    }
  }

  /** With `gradient_acc = k >= 1` and the counter in [0, k), `n` calls make
      `(count + n) / k` optimizer steps and leave the counter at
      `(count + n) % k`, again in [0, k). */
  lemma {:induction false} AccumulationCounts(cfg: Config, count: int, n: nat)
    requires 1 <= cfg.gradientAcc && 0 <= count < cfg.gradientAcc
    ensures var r := Backprops(cfg, count, n);
            && 0 <= r.count < cfg.gradientAcc
            && Count(r.events, OptimizerStep) * cfg.gradientAcc + r.count == count + n
    decreases n
  {
    if n > 0 {
      var k := cfg.gradientAcc;
      var b := BackpropStep(cfg, count);
      var rest := Backprops(cfg, b.count, n - 1);
      var r := Backprops(cfg, count, n);
      assert r.count == rest.count && r.events == b.events + rest.events;
      AccumulationCounts(cfg, b.count, n - 1);
      CountConcat(b.events, rest.events, OptimizerStep);
      var s := Count(rest.events, OptimizerStep);
      var q := Count(r.events, OptimizerStep);
      assert q == Count(b.events, OptimizerStep) + s;
      assert s * k + rest.count == b.count + n - 1;
      if count + 1 == k {
        assert Count(b.events, OptimizerStep) == 1 && b.count == 0;
        MulStep(q, s, k);
      } else {
        assert Count(b.events, OptimizerStep) == 0 && b.count == count + 1;
      }
    }
  }

  /** The quotient-and-remainder form of `AccumulationCounts`. */
  lemma AccumulationDivMod(cfg: Config, n: nat)
    requires 1 <= cfg.gradientAcc
    ensures var r := Backprops(cfg, 0, n);
            && Count(r.events, OptimizerStep) == n / cfg.gradientAcc
            && r.count == n % cfg.gradientAcc
  {
    AccumulationCounts(cfg, 0, n);
    var r := Backprops(cfg, 0, n);
    DivModUnique(n, cfg.gradientAcc, Count(r.events, OptimizerStep), r.count);
  }

  lemma MulStep(q: int, s: int, k: int)
    requires q == s + 1
    ensures q * k == s * k + k
  {
  }

  lemma MulSub(q: int, p: int, k: int)
    ensures q * k - p * k == (q - p) * k
  {
  }

  lemma MulAtLeast(d: int, k: int)
    requires 0 < k && 1 <= d
    ensures d * k >= k
  {
    var e := d - 1;
    MulStep(d, e, k);
    assert e * k >= 0;
  }

  lemma DivModBasics(a: int, k: int)
    requires 0 < k
    ensures (a / k) * k + a % k == a && 0 <= a % k < k
  {
  }

  lemma DivModUnique(a: int, k: int, q: int, r: int)
    requires 0 < k && 0 <= r < k && q * k + r == a
    ensures q == a / k && r == a % k
  {
    var q', r' := a / k, a % k;
    DivModBasics(a, k);
    MulSub(q, q', k);
    if q > q' {
      MulAtLeast(q - q', k);
    } else if q < q' {
      MulAtLeast(q' - q, k);
      MulSub(q', q, k);
    }
  }

  /** Counting from a fresh counter, call number `n + 1` steps the optimizer
      exactly when `n + 1` is a multiple of `gradient_acc`. */
  lemma KthCallSteps(cfg: Config, n: nat)
    requires 1 <= cfg.gradientAcc
    ensures var before := Backprops(cfg, 0, n).count;
            OptimizerStep in BackpropStep(cfg, before).events <==> (n + 1) % cfg.gradientAcc == 0
  {
    var k := cfg.gradientAcc;
    AccumulationDivMod(cfg, n);
    var before := Backprops(cfg, 0, n).count;
    assert before == n % k;
    DivModBasics(n, k);
    if n % k + 1 == k {
      MulStep(n / k + 1, n / k, k);
      DivModUnique(n + 1, k, n / k + 1, 0);
    } else {
      DivModUnique(n + 1, k, n / k, n % k + 1);
    }
    CountIn(BackpropStep(cfg, before).events, OptimizerStep);
  }

  /** With `gradient_acc <= 0` the counter only grows and the optimizer
      never steps. */
  lemma {:induction false} NoAccumulationTarget(cfg: Config, count: int, n: nat)
    requires cfg.gradientAcc <= count
    ensures var r := Backprops(cfg, count, n);
            r.count == count + n && Count(r.events, OptimizerStep) == 0
    decreases n
  {
    if n > 0 {
      var b := BackpropStep(cfg, count);
      NoAccumulationTarget(cfg, b.count, n - 1);
      CountConcat(b.events, Backprops(cfg, b.count, n - 1).events, OptimizerStep);
    }
  }

  // ---------------------------------------------------------------------
  // _fit_epoch

  /** The batch loop of `_fit_epoch` with `nanCnt` consecutive skipped
      losses so far. */
  function Batches(t: Trainer, nanCnt: int, ls: seq<Loss>): (r: Run)
    ensures r.trainer.(gradCount := t.gradCount, step := t.step, events := t.events) == t
    decreases |ls|
  {
    if ls == [] then Run(t, Success(()))
    else if !t.cfg.skipNanLoss || ls[0].Finite? then
      var b := BackpropStep(t.cfg, t.gradCount);
      Batches(t.(gradCount := b.count, step := t.step + 1, events := t.events + b.events + [SchedulerStep]), 0, ls[1..])
    else if nanCnt + 1 > t.cfg.nanTolerance then Run(t, Failure(TooManyNonFinite))
    else Batches(t.(step := t.step + 1, events := t.events + [SchedulerStep]), nanCnt + 1, ls[1..])
  }

  /** The outcome and counters of an epoch over the losses `ls` started
      from `t`: it fails exactly when some batch exceeds the tolerance;
      a finished epoch advances `step` by the number of batches and
      `epoch` by one and leaves the accumulation counter where the
      backpropped batches take it, a failed one advances `step` by the batches before
      the failing one and leaves `epoch` alone. */
  ghost predicate EpochAccounted(t: Trainer, ls: seq<Loss>, r: Run)
  {
    var tol := t.cfg.nanTolerance;
    && (r.outcome.Failure? <==> t.cfg.skipNanLoss && exists i :: 0 <= i < |ls| && Exceeds(0, ls, tol, i))
    && (r.outcome.Success? ==> r.trainer.step == t.step + |ls| && r.trainer.epoch == t.epoch + 1)
    && (r.outcome.Success? ==> r.trainer.gradCount == Backprops(t.cfg, t.gradCount, Backpropped(t.cfg, ls)).count)
    && (r.outcome.Failure? ==> r.trainer.epoch == t.epoch && r.trainer.step == t.step + FirstExceed(0, ls, tol))
  }

  /** `_fit_epoch`: train mode with frozen batch-norm layers kept frozen,
      the batch loop, then the epoch counter. */
  function FitEpoch(t: Trainer, ls: seq<Loss>): (r: Run)
    ensures r.trainer.model == FreezeBn(Train(t.model))
    ensures r.trainer.opt == t.opt && r.trainer.lrRecorder == t.lrRecorder && r.trainer.lossRecorder == t.lossRecorder
    ensures EpochAccounted(t, ls, r)
  {
    var t0 := t.(model := FreezeBn(Train(t.model)));
    var r := Batches(t0, 0, ls);
    BatchesSpec(t0, 0, ls);
    BatchesCounter(t0, 0, ls);
    var tol := t.cfg.nanTolerance;
    assert (exists i :: 0 <= i < |ls| && Exceeds(0, ls, tol, i)) <==> FirstExceed(0, ls, tol) < |ls|;
    if r.outcome.Success? then Run(r.trainer.(epoch := r.trainer.epoch + 1), r.outcome) else r
  }

  /** The run of non-finite losses ending at batch `i`, where `carry`
      non-finite losses came before the first batch. */
  function Streak(carry: nat, ls: seq<Loss>, i: nat): (n: nat)
    requires i < |ls|
  {
    if ls[i].Finite? then 0 else if i == 0 then carry + 1 else Streak(carry, ls, i - 1) + 1
  }

  /** Without a carry, the streak at `i` is the number of consecutive
      non-finite losses ending there. */
  lemma {:induction false} StreakIsRun(ls: seq<Loss>, i: nat)
    requires i < |ls|
    ensures Streak(0, ls, i) <= i + 1
    ensures forall j :: i - Streak(0, ls, i) < j <= i ==> ls[j].NonFinite?
    ensures Streak(0, ls, i) == i + 1 || ls[i - Streak(0, ls, i)].Finite?
  {
    if i > 0 && ls[i].NonFinite? {
      StreakIsRun(ls, i - 1);
    }
  }

  lemma {:induction false} StreakShift(carry: nat, ls: seq<Loss>, i: nat)
    requires 1 <= i < |ls|
    ensures Streak(carry, ls, i) == Streak(Streak(carry, ls, 0), ls[1..], i - 1)
  {
    assert ls[1..][i - 1] == ls[i];
    if i > 1 && ls[i].NonFinite? {
      StreakShift(carry, ls, i - 1);
    }
  }

  /** Batch `i` is non-finite and ends a streak longer than the tolerance. */
  predicate Exceeds(carry: nat, ls: seq<Loss>, tol: int, i: nat)
    requires i < |ls|
  {
    ls[i].NonFinite? && Streak(carry, ls, i) > tol
  }

  /** The first batch that exceeds the tolerance, or the number of batches
      when there is none. */
  function FirstExceed(carry: nat, ls: seq<Loss>, tol: int): (i: nat)
    ensures i <= |ls|
    ensures forall j :: 0 <= j < i ==> !Exceeds(carry, ls, tol, j)
    ensures i < |ls| ==> Exceeds(carry, ls, tol, i)
    decreases |ls|
  {
    if ls == [] then 0
    else if Exceeds(carry, ls, tol, 0) then 0
    else
      var rest := ls[1..];
      var c := Streak(carry, ls, 0);
      var i := FirstExceed(c, rest, tol);
      forall j | 1 <= j < |ls| ensures Exceeds(carry, ls, tol, j) == Exceeds(c, rest, tol, j - 1) {
        StreakShift(carry, ls, j);
      }
      1 + i
  }

  /** The batch loop raises exactly when skipping is on and some batch's
      streak exceeds the tolerance, at the first such batch; `step` counts
      the batches finished before it. */
  lemma {:induction false} BatchesSpec(t: Trainer, carry: nat, ls: seq<Loss>)
    ensures var r := Batches(t, carry, ls);
            var first := FirstExceed(carry, ls, t.cfg.nanTolerance);
            && (r.outcome.Failure? <==> t.cfg.skipNanLoss && first < |ls|)
            && r.trainer.step == t.step + (if t.cfg.skipNanLoss then first else |ls|)
    decreases |ls|, 1
  {
    if ls != [] {
      if !t.cfg.skipNanLoss || ls[0].Finite? {
        BatchesBackprop(t, carry, ls);
      } else if carry + 1 <= t.cfg.nanTolerance {
        BatchesTolerated(t, carry, ls);
      } else {
        assert Exceeds(carry, ls, t.cfg.nanTolerance, 0);
      }
    }
  }

  /** A batch that is trained on resets the streak. */
  lemma {:induction false} BatchesBackprop(t: Trainer, carry: nat, ls: seq<Loss>)
    requires ls != [] && (!t.cfg.skipNanLoss || ls[0].Finite?)
    ensures var r := Batches(t, carry, ls);
            var first := FirstExceed(carry, ls, t.cfg.nanTolerance);
            && (r.outcome.Failure? <==> t.cfg.skipNanLoss && first < |ls|)
            && r.trainer.step == t.step + (if t.cfg.skipNanLoss then first else |ls|)
    decreases |ls|, 0
  {
    var tol := t.cfg.nanTolerance;
    var b := BackpropStep(t.cfg, t.gradCount);
    var t' := t.(gradCount := b.count, step := t.step + 1, events := t.events + b.events + [SchedulerStep]);
    assert Batches(t, carry, ls) == Batches(t', 0, ls[1..]);
    BatchesSpec(t', 0, ls[1..]);
    if t.cfg.skipNanLoss {
      assert Streak(carry, ls, 0) == 0 && !Exceeds(carry, ls, tol, 0);
      assert FirstExceed(carry, ls, tol) == 1 + FirstExceed(0, ls[1..], tol);
    }
  }

  /** A skipped batch within the tolerance lengthens the streak. */
  lemma {:induction false} BatchesTolerated(t: Trainer, carry: nat, ls: seq<Loss>)
    requires ls != [] && t.cfg.skipNanLoss && ls[0].NonFinite? && carry + 1 <= t.cfg.nanTolerance
    ensures var r := Batches(t, carry, ls);
            var first := FirstExceed(carry, ls, t.cfg.nanTolerance);
            && (r.outcome.Failure? <==> first < |ls|)
            && r.trainer.step == t.step + first
    decreases |ls|, 0
  {
    var tol := t.cfg.nanTolerance;
    var t' := t.(step := t.step + 1, events := t.events + [SchedulerStep]);
    assert Batches(t, carry, ls) == Batches(t', carry + 1, ls[1..]);
    BatchesSpec(t', carry + 1, ls[1..]);
    assert Streak(carry, ls, 0) == carry + 1 && !Exceeds(carry, ls, tol, 0);
    assert FirstExceed(carry, ls, tol) == 1 + FirstExceed(carry + 1, ls[1..], tol);
  }

  /** A finished batch loop leaves the accumulation counter where as many
      calls of `_backprop_step` as batches were backpropped take it. */
  lemma {:induction false} BatchesCounter(t: Trainer, nanCnt: int, ls: seq<Loss>)
    ensures var r := Batches(t, nanCnt, ls);
            r.outcome.Success? ==> r.trainer.gradCount == Backprops(t.cfg, t.gradCount, Backpropped(t.cfg, ls)).count
    decreases |ls|
  {
    if ls != [] {
      if !t.cfg.skipNanLoss || ls[0].Finite? {
        var b := BackpropStep(t.cfg, t.gradCount);
        var t' := t.(gradCount := b.count, step := t.step + 1, events := t.events + b.events + [SchedulerStep]);
        assert Batches(t, nanCnt, ls) == Batches(t', 0, ls[1..]);
        BatchesCounter(t', 0, ls[1..]);
        assert Backpropped(t.cfg, ls) == 1 + Backpropped(t.cfg, ls[1..]);
      } else if nanCnt + 1 <= t.cfg.nanTolerance {
        var t' := t.(step := t.step + 1, events := t.events + [SchedulerStep]);
        assert Batches(t, nanCnt, ls) == Batches(t', nanCnt + 1, ls[1..]);
        BatchesCounter(t', nanCnt + 1, ls[1..]);
      }
    }
  }

  /** The batches that reach `_backprop_step`: all of them unless skipping
      is on, else the finite ones. */
  function Backpropped(cfg: Config, ls: seq<Loss>): (n: nat)
    ensures n <= |ls|
  {
    if ls == [] then 0
    else (if !cfg.skipNanLoss || ls[0].Finite? then 1 else 0) + Backpropped(cfg, ls[1..])
  }

  /** The count after one batch appends its calls and a scheduler step. */
  lemma EventsAppended(es: seq<Event>, b: seq<Event>, x: Event)
    ensures Count(es + b + [SchedulerStep], x) == Count(es, x) + Count(b, x) + (if x == SchedulerStep then 1 else 0)
  {
    CountConcat(es + b, [SchedulerStep], x);
    CountConcat(es, b, x);
    CountSingle(SchedulerStep, x);
  }

  /** A finished epoch calls backward once per batch that is not skipped,
      and steps the scheduler once per batch. */
  lemma {:induction false} EpochEvents(t: Trainer, carry: nat, ls: seq<Loss>)
    ensures var r := Batches(t, carry, ls);
            r.outcome.Success? ==>
              && Count(r.trainer.events, Backward) == Count(t.events, Backward) + Backpropped(t.cfg, ls)
              && Count(r.trainer.events, SchedulerStep) == Count(t.events, SchedulerStep) + |ls|
    decreases |ls|, 1
  {
    if ls != [] {
      if !t.cfg.skipNanLoss || ls[0].Finite? {
        EventsBackprop(t, carry, ls);
      } else if carry + 1 <= t.cfg.nanTolerance {
        EventsTolerated(t, carry, ls);
      }
    }
  }

  /** `EpochEvents` when the first batch is trained on. */
  lemma {:induction false} EventsBackprop(t: Trainer, carry: nat, ls: seq<Loss>)
    requires ls != [] && (!t.cfg.skipNanLoss || ls[0].Finite?)
    ensures var r := Batches(t, carry, ls);
            r.outcome.Success? ==>
              && Count(r.trainer.events, Backward) == Count(t.events, Backward) + Backpropped(t.cfg, ls)
              && Count(r.trainer.events, SchedulerStep) == Count(t.events, SchedulerStep) + |ls|
    decreases |ls|, 0
  {
    var b := BackpropStep(t.cfg, t.gradCount);
    var t' := t.(gradCount := b.count, step := t.step + 1, events := t.events + b.events + [SchedulerStep]);
    assert Batches(t, carry, ls) == Batches(t', 0, ls[1..]);
    EventsAppended(t.events, b.events, Backward);
    EventsAppended(t.events, b.events, SchedulerStep);
    EpochEvents(t', 0, ls[1..]);
  }

  /** `EpochEvents` when the first batch is skipped within the tolerance. */
  lemma {:induction false} EventsTolerated(t: Trainer, carry: nat, ls: seq<Loss>)
    requires ls != [] && t.cfg.skipNanLoss && ls[0].NonFinite? && carry + 1 <= t.cfg.nanTolerance
    ensures var r := Batches(t, carry, ls);
            r.outcome.Success? ==>
              && Count(r.trainer.events, Backward) == Count(t.events, Backward) + Backpropped(t.cfg, ls)
              && Count(r.trainer.events, SchedulerStep) == Count(t.events, SchedulerStep) + |ls|
    decreases |ls|, 0
  {
    var t' := t.(step := t.step + 1, events := t.events + [SchedulerStep]);
    assert Batches(t, carry, ls) == Batches(t', carry + 1, ls[1..]);
    EventsAppended(t.events, [], Backward);
    EventsAppended(t.events, [], SchedulerStep);
    assert t.events + [] == t.events;
    EpochEvents(t', carry + 1, ls[1..]);
  }

  // ---------------------------------------------------------------------
  // _set_params and _reset_opt

  function Ids(ps: seq<Param>): (r: seq<nat>)
    ensures |r| == |ps| && forall i :: 0 <= i < |ps| ==> r[i] == ps[i].id
  {
    seq(|ps|, i requires 0 <= i < |ps| => ps[i].id)
  }

  predicate AnyTrainable(ps: seq<Param>) {
    exists i :: 0 <= i < |ps| && ps[i].trainable
  }

  /** `_set_params(norm_weight_decay)`: the parameter lists for the groups. */
  function SetParams(model: Module, normWd: Option<real>): (r: Result<(seq<nat>, seq<nat>), TrainError>)
    ensures r.Failure? <==> !AnyTrainable(Params(model))
    ensures r.Failure? ==> r.error == AllFrozen
  {
    var ps := Params(model);
    if !AnyTrainable(ps) then Failure(AllFrozen)
    else if normWd.None? then Success((Ids(Trainable(ps)), []))
    else
      // split_normalization_params with its default classes, which cannot fail
      var s := SplitModule(model, DefaultNormClasses);
      Success((Ids(s.norm), Ids(s.other)))
  }

  /** A group over `ids`, overriding only the weight decay. */
  function GroupWith(ids: seq<nat>, wd: Option<real>): Lamb.GroupSpec {
    Lamb.GroupSpec(ids, None, None, None, wd)
  }

  /** The groups `_reset_opt` hands to the optimizer: one over every
      trainable parameter without a norm weight decay, else the non-empty
      ones of the norm group and the other group. */
  function NewGroups(d: Lamb.Hyper, normWd: Option<real>, lists: (seq<nat>, seq<nat>)): seq<Lamb.Group> {
    if normWd.None? then [Lamb.Resolve(GroupWith(lists.0, None), d)]
    else
      (if |lists.0| > 0 then [Lamb.Resolve(GroupWith(lists.0, normWd), d)] else [])
      + (if |lists.1| > 0 then [Lamb.Resolve(GroupWith(lists.1, Some(d.weightDecay)), d)] else [])
  }

  /** `_reset_opt(lr, norm_weight_decay)`: the default learning rate is set
      and the state and groups cleared before the parameter lists are
      built, so they stay cleared when that raises.  Without a norm weight
      decay the optimizer gets one group: every trainable parameter, in
      order, with the defaults.  With a norm weight decay `w` it gets the
      non-empty ones, in this order, of a norm group with decay `w` and an
      other group with the default decay. */
  function ResetOpt(opt: Lamb.Optimizer, model: Module, lr: real, normWd: Option<real>)
    : (r: (Lamb.Optimizer, Result<(), TrainError>))
    ensures r.0.defaults == opt.defaults.(lr := lr) && r.0.state == map[] && r.0.scaleClip == opt.scaleClip
    ensures r.1.Failure? <==> !AnyTrainable(Params(model))
    ensures r.1.Failure? ==> r.1.error == AllFrozen && r.0.groups == []
    ensures normWd.None? && r.1.Success? ==>
              r.0.groups == [Lamb.Group(Ids(Trainable(Params(model))), opt.defaults.(lr := lr))]
    ensures normWd.Some? && r.1.Success? ==>
              var d := opt.defaults.(lr := lr);
              var s := SplitModule(model, DefaultNormClasses);
              && |r.0.groups| == (if |s.norm| > 0 then 1 else 0) + (if |s.other| > 0 then 1 else 0)
              && 1 <= |r.0.groups| <= 2
              && (forall g :: g in r.0.groups ==> |g.params| > 0)
              && (|s.norm| > 0 ==> r.0.groups[0] == Lamb.Group(Ids(s.norm), d.(weightDecay := normWd.value)))
              && (|s.other| > 0 ==> r.0.groups[|r.0.groups| - 1] == Lamb.Group(Ids(s.other), d))
  {
    var d := opt.defaults.(lr := lr);
    var cleared := opt.(defaults := d, state := map[], groups := []);
    match SetParams(model, normWd)
    case Failure(e) => (cleared, Failure(e))
    case Success(lists) =>
      if normWd.Some? then
        SplitNonEmpty(model);
        NormGroupsShape(d, normWd.value, lists.0, lists.1);
        (cleared.(groups := NewGroups(d, normWd, lists)), Success(()))
      else (cleared.(groups := NewGroups(d, normWd, lists)), Success(()))
  }

  /** The two groups of a norm weight decay `w`: each present exactly when
      its list is non-empty, the norm one first with decay `w`, the other
      one with the default decay. */
  lemma NormGroupsShape(d: Lamb.Hyper, w: real, a: seq<nat>, b: seq<nat>)
    requires |a| > 0 || |b| > 0
    ensures var gs := NewGroups(d, Some(w), (a, b));
            && |gs| == (if |a| > 0 then 1 else 0) + (if |b| > 0 then 1 else 0)
            && 1 <= |gs| <= 2
            && (forall g :: g in gs ==> |g.params| > 0)
            && (|a| > 0 ==> gs[0] == Lamb.Group(a, d.(weightDecay := w)))
            && (|b| > 0 ==> gs[|gs| - 1] == Lamb.Group(b, d))
  {
  }

  /** The two groups `_reset_opt` adds with a norm weight decay `w`, before
      the empty ones are dropped. */
  function SplitGroups(s: Split, w: real, d: Lamb.Hyper): seq<Lamb.GroupSpec> {
    [GroupWith(Ids(s.norm), Some(w)), GroupWith(Ids(s.other), Some(d.weightDecay))]
  }

  /** With distinct identities the two lists of the split share no
      parameter, so `add_param_group` accepts both groups. */
  lemma ResetGroupsAccepted(model: Module, w: real, d: Lamb.Hyper)
    requires DistinctIds(Params(model))
    ensures Lamb.AddGroups(SplitGroups(SplitModule(model, DefaultNormClasses), w, d), 0)
  {
    var s := SplitModule(model, DefaultNormClasses);
    var specs := SplitGroups(s, w, d);
    SplitIdsApart(model, DefaultNormClasses);
    assert IdsApart(s.norm, s.other);
    forall x | x in specs[0].params ensures x !in specs[1].params {
      var i :| 0 <= i < |s.norm| && Ids(s.norm)[i] == x;
      forall j | 0 <= j < |s.other| ensures Ids(s.other)[j] != x {
        assert s.norm[i].id != s.other[j].id;
      }
    }
    assert !Lamb.Clash(specs[0].params, specs[1].params);
  }

  /** With the split as written, the model of `AsWrittenSharesNormParams`
      gives `_reset_opt` two lists that share both parameters, so the
      second `add_param_group` call rejects its group. */
  lemma AsWrittenResetRejects(wp: Param, bp: Param, w: real, d: Lamb.Hyper)
    requires wp.trainable && bp.trainable && wp.id != bp.id
    ensures var norm := Module(BatchNorm, true, true, true, [wp, bp], []);
            var empty := Module(ChildList("ModuleList"), false, false, true, [], []);
            var m := Module(ChildList("Sequential"), false, false, true, [], [empty, norm]);
            && DistinctIds(Params(m))
            && !Lamb.AddGroups(SplitGroups(SplitModuleAsWritten(m, DefaultNormClasses), w, d), 0)
  {
    var norm := Module(BatchNorm, true, true, true, [wp, bp], []);
    var empty := Module(ChildList("ModuleList"), false, false, true, [], []);
    var m := Module(ChildList("Sequential"), false, false, true, [], [empty, norm]);
    AsWrittenSharesNormParams(wp, bp);
    var specs := SplitGroups(SplitModuleAsWritten(m, DefaultNormClasses), w, d);
    assert specs[0].params == [wp.id, bp.id] == specs[1].params;
    assert Lamb.Clash(specs[0].params, specs[1].params) by {
      assert wp.id in specs[0].params && wp.id in specs[1].params;
    }
  }

  /** A model with a trainable parameter gives the split something. */
  lemma SplitNonEmpty(model: Module)
    requires AnyTrainable(Params(model))
    ensures var s := SplitModule(model, DefaultNormClasses);
            |s.norm| > 0 || |s.other| > 0
  {
    var ps := Params(model);
    var s := SplitModule(model, DefaultNormClasses);
    var i :| 0 <= i < |ps| && ps[i].trainable;
    assert ps[i] in Trainable(ps);
    assert ps[i] in multiset(s.norm) + multiset(s.other);
  }

  /** `Trainer.__init__`: counters and recorders start empty and the
      optimizer is reset to its own default learning rate, with one group
      of every trainable parameter. */
  function Init(cfg: Config, model: Module, opt: Lamb.Optimizer): (r: Run)
    ensures r.trainer.gradCount == 0 && r.trainer.step == 0 && r.trainer.epoch == 0
    ensures r.trainer.lrRecorder == [] && r.trainer.lossRecorder == []
    ensures r.trainer.opt.defaults == opt.defaults && r.trainer.opt.state == map[]
    ensures r.outcome.Failure? <==> !AnyTrainable(Params(model))
    ensures r.outcome.Success? ==> r.trainer.opt.groups == [Lamb.Group(Ids(Trainable(Params(model))), opt.defaults)]
  {
    var reset := ResetOpt(opt, model, opt.defaults.lr, None);
    Run(Trainer(cfg, model, reset.0, 0, 0, 0, [], [], []), reset.1)
  }

  // ---------------------------------------------------------------------
  // find_lr

  function Pow(g: real, n: nat): real {
    if n == 0 then 1.0 else g * Pow(g, n - 1)
  }

  /** The learning rates `find_lr` tries: `num_it` of them (none for a
      non-positive `num_it`), starting at `start_lr` and growing
      geometrically by `gamma`. */
  function LrSchedule(startLr: real, gamma: real, numIt: int): (r: seq<real>)
    ensures |r| == (if numIt < 0 then 0 else numIt)
    ensures forall i :: 0 <= i < |r| ==> r[i] == startLr * Pow(gamma, i)
  {
    var n := if numIt < 0 then 0 else numIt;
    seq(n, i requires 0 <= i < n => startLr * Pow(gamma, i))
  }

  /** Python's slice `s[:n]` for `n >= 0`. */
  function Take(s: seq<real>, n: nat): (r: seq<real>)
    ensures |r| == (if n < |s| then n else |s|) && r == s[..|r|]
  {
    if n < |s| then s[..n] else s
  }

  /** The recording loop of `find_lr` at batch index `idx`. */
  function Search(t: Trainer, numIt: int, idx: nat, ls: seq<Loss>): (r: Run)
    ensures r.trainer.(gradCount := t.gradCount, events := t.events, lossRecorder := t.lossRecorder) == t
    decreases |ls|
  {
    if ls == [] then Run(t, Success(()))
    else
      var b := BackpropStep(t.cfg, t.gradCount);
      var t1 := t.(gradCount := b.count, events := t.events + b.events + [SchedulerStep]);
      if ls[0].NonFinite? then
        if idx == 0 then Run(t1, Failure(NonFiniteFirstLoss)) else Run(t1, Success(()))
      else
        var t2 := t1.(lossRecorder := t1.lossRecorder + [ls[0].value]);
        if idx + 1 == numIt then Run(t2, Success(()))
        else Search(t2, numIt, idx + 1, ls[1..])
  }

  /** The model as `find_lr` prepares it: frozen up to `freeze_until`
      without error, with some parameter left trainable. */
  predicate Prepared(t: Trainer, freezeUntil: Option<string>) {
    var fz := FreezeModel(Train(t.model), freezeUntil, false);
    fz.outcome.Success? && AnyTrainable(Params(fz.model))
  }

  /** `find_lr(freeze_until, start_lr, end_lr, norm_weight_decay, num_it)`.
      `gamma` is the value of `(end_lr / start_lr) ** (1 / (num_it - 1))`,
      computed by the caller's floating-point power; the two divisions
      raise when `start_lr` is zero or `num_it` is one.  For
      `2 <= num_it <= len(train_loader)` the search fails exactly when the
      first loss is non-finite, and otherwise records the first
      `min(num_it, finite prefix)` losses and as many scheduled learning
      rates.  As written, a non-positive `num_it` passes every check: every
      finite loss up to the first non-finite one is recorded while the
      learning-rate recorder is left empty. */
  function FindLr(
    t: Trainer, freezeUntil: Option<string>, startLr: real, gamma: real,
    normWd: Option<real>, numIt: int, ls: seq<Loss>): (r: Run)
    ensures numIt > |ls| ==> r == Run(t, Failure(NumItTooLarge))
    ensures numIt <= |ls| && FreezeModel(Train(t.model), freezeUntil, false).outcome.Failure? ==>
              r.outcome == Failure(FreezeFailed(FreezeModel(Train(t.model), freezeUntil, false).outcome.error))
    ensures numIt <= |ls| && FreezeModel(Train(t.model), freezeUntil, false).outcome.Success? && !Prepared(t, freezeUntil) ==>
              r.outcome == Failure(AllFrozen)
    ensures numIt <= |ls| && Prepared(t, freezeUntil) && (startLr == 0.0 || numIt == 1) ==>
              r.outcome == Failure(ZeroDivision)
    ensures 2 <= numIt <= |ls| && startLr != 0.0 && Prepared(t, freezeUntil) ==>
              var n := if numIt < FinitePrefix(ls) then numIt else FinitePrefix(ls);
              && (r.outcome.Failure? <==> ls[0].NonFinite?)
              && (r.outcome.Success? ==>
                    && r.trainer.lossRecorder == Values(ls[..n])
                    && |r.trainer.lrRecorder| == |r.trainer.lossRecorder| <= numIt
                    && r.trainer.lrRecorder == LrSchedule(startLr, gamma, numIt)[..n])
    ensures numIt <= 0 && startLr != 0.0 && Prepared(t, freezeUntil) && ls != [] && ls[0].Finite? ==>
              && r.outcome.Success?
              && r.trainer.lossRecorder == Values(ls[..FinitePrefix(ls)])
              && r.trainer.lrRecorder == []
              && |r.trainer.lrRecorder| != |r.trainer.lossRecorder|
  {
    if numIt > |ls| then Run(t, Failure(NumItTooLarge))
    else
      var fz := FreezeModel(Train(t.model), freezeUntil, false);
      var t1 := t.(model := fz.model);
      if fz.outcome.Failure? then Run(t1, Failure(FreezeFailed(fz.outcome.error)))
      else
        var reset := ResetOpt(t1.opt, t1.model, startLr, normWd);
        var t2 := t1.(opt := reset.0);
        if reset.1.Failure? then Run(t2, reset.1)
        else if 2 <= numIt && startLr != 0.0 then
          LrSearchSpec(t2, startLr, gamma, numIt, ls);
          LrSearch(t2, startLr, gamma, numIt, ls)
        else if numIt <= 0 && startLr != 0.0 && ls != [] && ls[0].Finite? then
          LrSearchNonPositive(t2, startLr, gamma, numIt, ls);
          LrSearch(t2, startLr, gamma, numIt, ls)
        else LrSearch(t2, startLr, gamma, numIt, ls)
  }

  /** `find_lr` after the optimizer reset: the schedule, the recording loop
      and the truncation of the learning-rate recorder. */
  function LrSearch(t: Trainer, startLr: real, gamma: real, numIt: int, ls: seq<Loss>): (r: Run)
  {
    if startLr == 0.0 || numIt - 1 == 0 then Run(t, Failure(ZeroDivision))
    else
      var t3 := t.(lrRecorder := LrSchedule(startLr, gamma, numIt), lossRecorder := []);
      var r := Search(t3, numIt, 0, ls);
      if r.outcome.Failure? then r
      else Run(r.trainer.(lrRecorder := Take(r.trainer.lrRecorder, |r.trainer.lossRecorder|)), r.outcome)
  }

  /** The number of leading finite losses. */
  function FinitePrefix(ls: seq<Loss>): (n: nat)
    ensures n <= |ls|
    ensures forall i :: 0 <= i < n ==> ls[i].Finite?
    ensures n == |ls| || ls[n].NonFinite?
  {
    if ls != [] && ls[0].Finite? then
      var n := FinitePrefix(ls[1..]);
      assert forall i :: 1 <= i < n + 1 ==> ls[i] == ls[1..][i - 1];
      1 + n
    else 0
  }

  /** The values of losses known to be finite. */
  function Values(ls: seq<Loss>): (r: seq<real>)
    requires forall i :: 0 <= i < |ls| ==> ls[i].Finite?
    ensures |r| == |ls| && forall i :: 0 <= i < |ls| ==> r[i] == ls[i].value
  {
    seq(|ls|, i requires 0 <= i < |ls| => ls[i].value)
  }

  /** How many losses the recording loop keeps from batch index `idx` on:
      the finite prefix, cut at the iterations left when there are any. */
  function Kept(numIt: int, idx: nat, ls: seq<Loss>): (n: nat)
    ensures n <= FinitePrefix(ls)
  {
    var p := FinitePrefix(ls);
    if idx < numIt && numIt - idx < p then numIt - idx else p
  }

  /** The recording loop keeps the finite losses before the first
      non-finite one, at most `numIt - idx` of them when that is positive,
      and raises only for a non-finite loss at index 0. */
  lemma {:induction false} SearchSpec(t: Trainer, numIt: int, idx: nat, ls: seq<Loss>)
    ensures var r := Search(t, numIt, idx, ls);
            var n := Kept(numIt, idx, ls);
            && (r.outcome.Failure? <==> idx == 0 && ls != [] && ls[0].NonFinite?)
            && (r.outcome.Failure? ==> r.trainer.lossRecorder == t.lossRecorder)
            && r.trainer.lossRecorder == t.lossRecorder + Values(ls[..n])
  {
    SearchLosses(t, numIt, idx, ls);
    RecordedKept(numIt, idx, ls);
    assert t.lossRecorder + [] == t.lossRecorder;
  }

  /** The losses the recording loop appends, batch by batch. */
  function Recorded(numIt: int, idx: nat, ls: seq<Loss>): seq<real>
    decreases |ls|
  {
    if ls == [] || ls[0].NonFinite? then []
    else if idx + 1 == numIt then [ls[0].value]
    else [ls[0].value] + Recorded(numIt, idx + 1, ls[1..])
  }

  /** The recording loop appends `Recorded` to the loss recorder. */
  lemma {:induction false} SearchLosses(t: Trainer, numIt: int, idx: nat, ls: seq<Loss>)
    ensures var r := Search(t, numIt, idx, ls);
            && (r.outcome.Failure? <==> idx == 0 && ls != [] && ls[0].NonFinite?)
            && r.trainer.lossRecorder == t.lossRecorder + Recorded(numIt, idx, ls)
    decreases |ls|
  {
    if ls != [] && ls[0].Finite? && idx + 1 != numIt {
      var b := BackpropStep(t.cfg, t.gradCount);
      var v := [ls[0].value];
      var t2 := t.(gradCount := b.count, events := t.events + b.events + [SchedulerStep],
                   lossRecorder := t.lossRecorder + v);
      assert Search(t, numIt, idx, ls) == Search(t2, numIt, idx + 1, ls[1..]);
      SearchLosses(t2, numIt, idx + 1, ls[1..]);
      assert t.lossRecorder + v + Recorded(numIt, idx + 1, ls[1..]) == t.lossRecorder + Recorded(numIt, idx, ls);
    }
  }

  /** `Recorded` is the kept prefix of the finite losses. */
  lemma {:induction false} RecordedKept(numIt: int, idx: nat, ls: seq<Loss>)
    ensures Recorded(numIt, idx, ls) == Values(ls[..Kept(numIt, idx, ls)])
    decreases |ls|
  {
    if ls != [] && ls[0].Finite? {
      assert FinitePrefix(ls) == 1 + FinitePrefix(ls[1..]);
      if idx + 1 == numIt {
        assert Kept(numIt, idx, ls) == 1;
        assert Values(ls[..1]) == [ls[0].value];
      } else {
        RecordedKept(numIt, idx + 1, ls[1..]);
        assert Kept(numIt, idx, ls) == Kept(numIt, idx + 1, ls[1..]) + 1;
        ValuesCons(ls, Kept(numIt, idx, ls));
      }
    } else {
      assert ls[..0] == [];
    }
  }

  /** The values of a finite prefix are its first value, then the values
      of the rest of it. */
  lemma ValuesCons(ls: seq<Loss>, n: nat)
    requires 1 <= n <= FinitePrefix(ls)
    ensures Values(ls[..n]) == [ls[0].value] + Values(ls[1..][..n - 1])
  {
  }

  /** The search of `find_lr` after the optimizer reset, for
      `2 <= num_it <= len(train_loader)`. */
  lemma LrSearchSpec(t: Trainer, startLr: real, gamma: real, numIt: int, ls: seq<Loss>)
    requires 2 <= numIt <= |ls| && startLr != 0.0
    ensures var r := LrSearch(t, startLr, gamma, numIt, ls);
            var n := if numIt < FinitePrefix(ls) then numIt else FinitePrefix(ls);
            && (r.outcome.Failure? <==> ls[0].NonFinite?)
            && (r.outcome.Success? ==>
                  && r.trainer.lossRecorder == Values(ls[..n])
                  && |r.trainer.lrRecorder| == |r.trainer.lossRecorder| <= numIt
                  && r.trainer.lrRecorder == LrSchedule(startLr, gamma, numIt)[..n])
  {
    var t3 := t.(lrRecorder := LrSchedule(startLr, gamma, numIt), lossRecorder := []);
    SearchSpec(t3, numIt, 0, ls);
    var r := Search(t3, numIt, 0, ls);
    assert r.trainer.lrRecorder == LrSchedule(startLr, gamma, numIt);
  }

  /** `find_lr` with the check on `num_it` it lacks: a non-positive value
      is rejected before anything is changed, and whenever the search
      succeeds the two recorders have the same length, at most `num_it`. */
  function FindLrChecked(
    t: Trainer, freezeUntil: Option<string>, startLr: real, gamma: real,
    normWd: Option<real>, numIt: int, ls: seq<Loss>): (r: Run)
    ensures numIt <= 0 ==> r == Run(t, Failure(NonPositiveNumIt))
    ensures r.outcome.Success? ==>
              && |r.trainer.lrRecorder| == |r.trainer.lossRecorder|
              && |r.trainer.lossRecorder| <= numIt
  {
    if numIt <= 0 then Run(t, Failure(NonPositiveNumIt))
    else FindLr(t, freezeUntil, startLr, gamma, normWd, numIt, ls)
  }

  /** The search of `find_lr` after the optimizer reset, for a
      non-positive `num_it`. */
  lemma LrSearchNonPositive(t: Trainer, startLr: real, gamma: real, numIt: int, ls: seq<Loss>)
    requires numIt <= 0 && startLr != 0.0 && ls != [] && ls[0].Finite?
    ensures var r := LrSearch(t, startLr, gamma, numIt, ls);
            && r.outcome.Success?
            && r.trainer.lossRecorder == Values(ls[..FinitePrefix(ls)])
            && r.trainer.lrRecorder == []
  {
    var t3 := t.(lrRecorder := LrSchedule(startLr, gamma, numIt), lossRecorder := []);
    SearchSpec(t3, numIt, 0, ls);
    var r := Search(t3, numIt, 0, ls);
    assert Kept(numIt, 0, ls) == FinitePrefix(ls);
    assert r.trainer.lrRecorder == [];
  }
}

=== FILE: vectors.dfy ===
/** Dense real vectors: the flattened contents of one tensor, with the
    elementwise arithmetic the optimizer performs.

    The elementwise square root and the whole-tensor L2 norm are not
    definable by closed formulas over `real`, so the operations that use
    them take them as function parameters.  `IsSqrt` and the three `Norm`
    predicates state what is assumed of those parameters: the square-root
    law on the non-negative reals, and the norm laws (non-negative, zero
    exactly on the zero vector, absolutely homogeneous). */
module Vectors {

  type Vector = seq<real>

  function Zeros(n: nat): (z: Vector)
    ensures |z| == n
    ensures forall k :: 0 <= k < n ==> z[k] == 0.0
  {
    seq(n, _ => 0.0)
  }

  function Scale(c: real, u: Vector): (r: Vector)
    ensures |r| == |u|
    ensures forall k :: 0 <= k < |u| ==> r[k] == c * u[k]
  {
    seq(|u|, k requires 0 <= k < |u| => c * u[k])
  }

  function Add(u: Vector, w: Vector): (r: Vector)
    requires |u| == |w|
    ensures |r| == |u|
    ensures forall k :: 0 <= k < |u| ==> r[k] == u[k] + w[k]
  {
    seq(|u|, k requires 0 <= k < |u| => u[k] + w[k])
  }

  function Sub(u: Vector, w: Vector): (r: Vector)
    requires |u| == |w|
    ensures |r| == |u|
    ensures forall k :: 0 <= k < |u| ==> r[k] == u[k] - w[k]
  {
    seq(|u|, k requires 0 <= k < |u| => u[k] - w[k])
  }

  /** Every element is zero. */
  predicate IsZero(u: Vector) {
    forall k :: 0 <= k < |u| ==> u[k] == 0.0
  }

  function Abs(x: real): real {
    if x < 0.0 then -x else x
  }

  /** `sqrt` is the non-negative square root on the non-negative reals. */
  ghost predicate IsSqrt(sqrt: real -> real) {
    forall x :: 0.0 <= x ==> 0.0 <= sqrt(x) && sqrt(x) * sqrt(x) == x
  }

  /** The three laws of a norm, stated separately so that a proof can
      assume only the ones it uses. */
  ghost predicate NormNonNegative(norm: Vector -> real) {
    forall u :: 0.0 <= norm(u)
  }

  ghost predicate NormZeroIff(norm: Vector -> real) {
    forall u :: norm(u) == 0.0 <==> IsZero(u)
  }

  ghost predicate NormHomogeneous(norm: Vector -> real) {
    forall c, u :: norm(Scale(c, u)) == Abs(c) * norm(u)
  }
}
